=== FILE: README.md ===
# bad-apple-painter, modelled in Dafny

bad-apple-painter is a browser game. A video plays beside a paint canvas.
Every frame is rounded to pure black and white. The player paints that
silhouette with a black or white brush, and earns points per frame for the
share of canvas pixels that match the rounded frame.

This project models the game logic of `src/main.ts` as pure functions over
immutable data:

- **Pixels** (`pixels.dfy`): 32-bit RGBA words, read little-endian as a
  `Uint32Array` reads them. It covers the black/white rounding of a frame
  against `0xFF7F7F7F`, the per-channel inversion `255 - c`, and the two
  paint colours.
- **Raster** (`raster.dfy`): a flat pixel buffer with width and height. It
  covers the opaque black start buffer, the fill tool, the square brush stamp
  (the arithmetic of a canvas `fillRect` with radius `floor(size / 2)`), the
  stamping of a whole stroke, and the invert tool.
- **Scoring** (`scoring.dfy`): per-pixel agreement between the rounded frame
  and the paint buffer, the accuracy ratio, and the points added per frame
  (`accuracy * 10`). The ratio's expression (src/main.ts:462) gives 1 for an
  empty buffer, but the program never reaches that case: reading back a
  zero-area canvas fails first (src/main.ts:29), so such a frame scores
  nothing.
- **Stroke** (`stroke.dfy`): the gap-free stroke between the last painted
  pixel and the new one. It uses `max(1, ceil(sqrt(dx² + dy²)))` steps and
  `Math.round` of the exact intermediate points.
- **Mapping** (`mapping.dfy`): the `object-fit: contain` letterbox layout and
  the pointer-to-pixel mapping, with `None` off the image.
- **BrushSize** (`brush.dfy`): wheel and keyboard size steps bounded by the
  configured minimum and maximum, the starting size, and the coupling between
  the minimum and maximum inputs on the start screen.
- **Keys** (`keys.dfy`): the chord of a keydown event and the
  order-insensitive chord comparison. The comparison sorts both lists
  (insertion sort over lexicographic string order) and compares them
  element by element.
- **Session** (`session.dfy`): the game's mutable state as a record. There is
  one function per event: frame, pointer down/move/up/leave, the tool
  buttons, wheel and keydown. A `Step` function dispatches over all of them.
- `common.dfy` holds `Option`, coordinates and rectangles. `arith.dfy` holds
  small lemmas on integer division and real multiplication that the proofs
  above use.

Effects the game gets from the browser arrive as parameters:

- the decoded video frame;
- the canvas's bounding rectangle;
- pointer coordinates and the wheel delta;
- the keydown event;
- whether the start screen is showing.

Where the program compares with `===` and stores `number`s, the model uses
exact `int` and `real` values.

## Model

| member | source | states |
|---|---|---|
| Pixels.ThresholdPixel | src/main.ts:14-33 | a rounded pixel is black or white, black exactly when the word is below `0xFF7F7F7F` and white otherwise |
| Pixels.ThresholdPixelIdempotent | src/main.ts:31-33 | rounding an already rounded pixel changes nothing, and black and white pass through unchanged |
| Pixels.Threshold | src/main.ts:29-34 | the rounded frame has the frame's length, holds only black and white, and pixel i is black exactly when frame pixel i is below the threshold |
| Pixels.ThresholdIdempotent | src/main.ts:29-34 | rounding a rounded frame again changes nothing, and a black-and-white frame is its own rounding |
| Pixels.RoundFrame | src/main.ts:31-33 | the in-place rounding loop produces exactly the rounded frame |
| Pixels.InvertPixel | src/main.ts:509-513 | red, green and blue each become 255 minus their value, alpha is kept, and black and white swap |
| Pixels.InvertPixelInvolution | src/main.ts:506-515 | inverting a pixel twice restores it |
| Pixels.Word | src/main.ts:399-402 | the `#000` and `#fff` fill styles write opaque words: black has all colour channels 0, white all 255, and each is one of the two binary words |
| Pixels.Swap | src/main.ts:495-498 | swapping gives the other colour, whose pixel is the inversion of the current one |
| Raster.Blank | src/main.ts:399-400 | a fresh buffer has the requested size and every pixel in the given colour |
| Raster.Fill | src/main.ts:501-503 | the fill tool keeps the size and sets every pixel to the current colour |
| Raster.SquareCoversCentre | src/main.ts:689-697 | a square brush of size at least 1 always covers its centre pixel |
| Raster.Stamp | src/main.ts:689-697 | a brush stamp sets exactly the in-bounds pixels of the square at `(x - floor(size/2), y - floor(size/2))` of side `size`, and leaves every other pixel unchanged |
| Raster.StampIdempotent | src/main.ts:689-697 | stamping the same square twice equals stamping it once |
| Raster.ApplyStamps | src/main.ts:676-683 | after stamping a stroke, a pixel has the paint colour exactly when some stamp of the stroke covers it, and otherwise keeps its old value |
| Raster.Invert | src/main.ts:506-515 | the invert tool keeps the size, inverts every pixel per channel, and swaps black and white everywhere |
| Raster.InvertInvolution | src/main.ts:506-515 | inverting the buffer twice restores it |
| Raster.ToolsKeepBinary | src/main.ts:501-515 | fill, invert and brush strokes in black or white keep a black-and-white buffer black and white |
| Scoring.CorrectUpTo | src/main.ts:452-459 | the count of agreeing pixels among the first n never exceeds n |
| Scoring.Accuracy | src/main.ts:461-462 | accuracy is in [0, 1]; it is 1 exactly when every pixel agrees (vacuously so for an empty buffer, as the expression at src/main.ts:462 reads) and 0 exactly when none of a non-empty buffer does |
| Scoring.ScoreFrame | src/main.ts:452-462 | the scoring loop counts exactly the agreeing pixels and returns that count's accuracy |
| Scoring.AddFramePoints | src/main.ts:466 | a frame adds between 0 and 10 points, exactly 10 only for a perfect frame |
| Scoring.CorrectOverRange | src/main.ts:452-459 | a range of all-agreeing pixels adds its full length to the count and an all-disagreeing range adds nothing |
| Scoring.PerfectIff | src/main.ts:452-459 | the count equals the number of pixels examined exactly when every one of them agrees |
| Scoring.NoneIff | src/main.ts:452-459 | the count is zero exactly when no examined pixel agrees |
| Scoring.AccuracyExtremes | src/main.ts:452-462 | full accuracy means every pixel agrees; zero accuracy means a non-empty buffer where no pixel agrees |
| Scoring.PerfectMeansIdentical | src/main.ts:452-462 | for black-and-white buffers of equal size, full accuracy holds exactly when the painting equals the rounded frame |
| Scoring.CorrectSymmetric | src/main.ts:453-459 | for equal sizes, the count of agreeing pixels does not depend on which buffer is the frame |
| Scoring.FourByFourScenario | src/main.ts:452-466 | a 4x4 frame with a black top row against an all-white painting scores 12 of 16 pixels, accuracy 0.75 and 7.5 points |
| Stroke.CeilSqrtFrom | src/main.ts:673-674 | the result is the least value from the start whose square reaches the target |
| Stroke.Steps | src/main.ts:671-674 | the step count is the least positive s with s² at least the squared distance |
| Stroke.StepsDominate | src/main.ts:671-674 | the step count is at least the distance along each axis |
| Stroke.Lerp | src/main.ts:677-679 | the interpolated coordinate `r` is the integer nearest `a + d * i / s`, halves up: `2s(r - a) <= 2di + s < 2s(r - a) + 2s` |
| Stroke.LerpRounds | src/main.ts:676-679 | the integer interpolation equals `Math.round` (floor of value plus one half) of the exact point at `i / steps` |
| Stroke.LerpEnds | src/main.ts:676-679 | the interpolation starts at the last point and ends at the new one |
| Stroke.LerpBetween | src/main.ts:676-679 | every interpolated coordinate lies between the two endpoints |
| Stroke.LerpNeighbours | src/main.ts:676-679 | consecutive interpolated coordinates differ by at most one |
| Stroke.Interpolate | src/main.ts:669-684 | the first stamp of a drag is the pointer pixel alone; later strokes have steps + 1 points from the last pixel to the new one, move at most one pixel per axis between neighbours (no gaps), and stay inside the endpoints' bounding box |
| Stroke.InterpolateRounds | src/main.ts:676-680 | each stroke point is the rounding of the exact point on the segment at parameter `i / steps` |
| Mapping.WiderIff | src/main.ts:639-643 | the canvas-aspect versus rect-aspect comparison is the cross-multiplied comparison of the sides |
| Mapping.ContainLayout | src/main.ts:639-655 | the rendered image fits the rect, fills it along one axis, keeps the canvas's aspect ratio, and is centred by the offsets |
| Mapping.AxisToPixel | src/main.ts:657-663 | the scaled, floored pixel index is in range exactly when the position lies within the rendered extent, and the position lies inside that pixel's on-screen cell `[v * pitch, (v + 1) * pitch)` |
| Mapping.AxisCell | src/main.ts:660-661 | `floor(u * n / extent)` names the pixel whose on-screen cell holds position u |
| Mapping.MapToBuffer | src/main.ts:635-666 | a pointer yields a pixel exactly when it lies over the rendered image (not a letterbox bar); that pixel is in the buffer and is the one whose on-screen cell holds the pointer on both axes |
| Mapping.UniformScale | src/main.ts:657-658 | both axes use the same scale factor |
| Mapping.NoLetterbox | src/main.ts:643-661 | with matching aspect ratios both offsets are zero and the mapping is the plain scaled floor |
| Mapping.LetterboxExample | src/main.ts:635-666 | a 100x50 buffer in a 100x100 box maps the centre to (50, 25) and the top-left corner, in the bar, to nothing |
| Mapping.AxisRoundTrip | src/main.ts:657-661 | the on-screen centre of pixel p along one axis maps back to p |
| Mapping.PixelCentreRoundTrip | src/main.ts:635-666 | the on-screen centre of every buffer pixel maps back to that pixel |
| BrushSize.Increase | src/main.ts:583-587 | a step up adds one exactly when below the maximum, and otherwise leaves the size |
| BrushSize.Decrease | src/main.ts:588-592 | a step down subtracts one exactly when above the minimum, and otherwise leaves the size |
| BrushSize.Wheel | src/main.ts:518-531 | the size grows by one exactly when scrolling up below the maximum, shrinks by one exactly when scrolling down above the minimum, and stays put otherwise, including on a horizontal scroll |
| BrushSize.AdjustStaysInRange | src/main.ts:518-531 | a size within the bounds stays within them under every wheel and key step |
| BrushSize.AdjustNeverMovesAway | src/main.ts:583-592 | a size at or past a bound is never pushed further past it |
| BrushSize.StartSize | src/main.ts:390 | the starting size is the rounded-down midpoint of the bounds and lies within them |
| BrushSize.OnMaxInput | src/main.ts:194-205 | a new maximum drags a larger minimum down to it, and the controls end up enabled exactly when the minimum is below the maximum |
| BrushSize.OnMinInputAsWritten | src/main.ts:183-192 | a new minimum drags a smaller maximum up to it and disables the controls when the range collapses, but never enables them |
| BrushSize.MinInputLeavesControlsDisabled | src/main.ts:183-192 | from min = max = 5 with controls disabled, lowering the minimum to 3 leaves them disabled although the range is now non-trivial |
| BrushSize.OnMinInput | src/main.ts:183-192 | the corrected handler keeps the same bounds and leaves the controls enabled exactly when the minimum is below the maximum |
| BrushSize.MinInputDifference | src/main.ts:183-205 | the corrected and as-written handlers agree on the bounds, and differ only when the new minimum is below a maximum with controls disabled |
| Keys.StrLeTotal | src/main.ts:538-539 | any two strings are comparable in the sort order |
| Keys.StrLeAntisymmetric | src/main.ts:538-539 | strings ordered both ways are equal |
| Keys.StrLeTransitive | src/main.ts:538-539 | the sort order is transitive |
| Keys.Insert | src/main.ts:538-539 | inserting into a sorted list gives a sorted list with the new element added |
| Keys.Sort | src/main.ts:538-539 | the sorted copy is sorted and is a permutation of the list |
| Keys.SortedUnique | src/main.ts:537-542 | two sorted lists with the same elements are identical |
| Keys.ChordsEqual | src/main.ts:535-543 | two chords compare equal exactly when they hold the same keys equally often, in any order |
| Keys.KeybindsEqual | src/main.ts:535-543 | the length check and element-by-element loop return true exactly when the chords hold the same keys |
| Keys.HeldModifiers | src/main.ts:546-549 | the held modifiers list has one entry per pressed modifier flag and contains each modifier exactly when its flag is set |
| Keys.HeldModifiersRanked | src/main.ts:546-549 | the held modifiers come in the order Control, Alt, Shift, Meta |
| Keys.PressedKeys | src/main.ts:545-555 | the chord holds each modifier exactly when its flag is set, plus the key itself, last, exactly when it is not a modifier |
| Keys.PressedKeysCanonical | src/main.ts:545-555 | a chord has no duplicates, only its last entry can be a non-modifier, and its modifiers are in the canonical order |
| Session.StartGame | src/main.ts:389-402 | a new game starts with zero points, white paint, an all-black buffer of the configured size and the brush at the rounded-down midpoint of the bounds, which lies within them; the shown accuracy, the drag and the last painted pixel carry over |
| Session.OnFrame | src/main.ts:444-467 | on a non-empty buffer a frame sets the accuracy of the rounded frame against the buffer and adds `accuracy * 10` points; on a zero-area buffer, where reading the canvas back fails before scoring (src/main.ts:29), it changes nothing; nothing but points and accuracy ever changes and the session invariant is kept |
| Session.PaintAtEvent | src/main.ts:635-687 | off the image nothing changes; on it, exactly the pixels covered by the brush along the interpolated stroke take the current colour, and the pointer's pixel becomes the last painted one |
| Session.MouseDown | src/main.ts:614-618 | pressing starts a drag whose last painted pixel is the pointer's pixel, or none off the image; points, accuracy, brush size and colour are kept |
| Session.MouseUp | src/main.ts:620-623 | releasing ends the drag and forgets the last painted pixel; nothing else changes |
| Session.MouseMove | src/main.ts:625-629 | moving with the button held paints at the pointer as `PaintAtEvent` does; moving without it changes nothing |
| Session.MouseLeave | src/main.ts:631-633 | leaving the canvas forgets the last painted pixel; nothing else changes, the drag included |
| Session.MouseDownStampsOnce | src/main.ts:614-618 | a fresh drag stamps exactly one brush square at the pointer's pixel |
| Session.StrokeStaysInBuffer | src/main.ts:660-686 | every stamp centre of a stroke, and the new last painted pixel, lie inside the buffer |
| Session.SwapColors | src/main.ts:495-498 | swapping selects the other colour, whose word is the channel-wise inverse of the old one; nothing else changes |
| Session.FillTool | src/main.ts:501-503 | the fill tool paints the whole buffer in the current colour; nothing but the buffer changes |
| Session.InvertTool | src/main.ts:506-515 | the invert tool swaps black and white in every pixel; nothing but the buffer changes |
| Session.ToolsInvolutive | src/main.ts:495-515 | inverting twice, or swapping colours twice, restores the session |
| Session.WheelEvent | src/main.ts:518-531 | a wheel event changes only the brush size: one up exactly when scrolling up below the maximum, one down exactly when scrolling down above the minimum; no event moves it by more than one; a bounded size stays bounded |
| Session.ApplyAction | src/main.ts:565-593 | play/pause leaves the session; swap selects the other colour; fill and invert change the buffer only when enabled on the start screen; the size actions take one bounded step; points and drag state never change |
| Session.RunBindings | src/main.ts:563-595 | the event counts as handled exactly when some keybind's chord has the pressed keys; with no match nothing changes; points and drag state are kept |
| Session.RunOneBinding | src/main.ts:564-566 | one keybind runs its action exactly when its chord has the pressed keys, and otherwise does nothing |
| Session.RunBindingsInOrder | src/main.ts:563-595 | keybinds run in list order: running two lists one after the other equals running their concatenation |
| Session.PresetSize | src/main.ts:596-601 | a preset size is chosen exactly when some preset matches, and it is the value of a matching preset after which no preset matches, so the last match wins |
| Session.KeyDown | src/main.ts:557-606 | on the start screen nothing happens; in the game the key is handled exactly when a keybind or preset matches; the matching keybinds run, then a matching preset sets the brush size to the chosen preset's value; unhandled keys change nothing |
| Session.PresetBypassesBounds | src/main.ts:596-601 | a preset may set a size above the configured maximum |
| Session.LastPresetWins | src/main.ts:596-601 | with presets 2 and 7 on the same chord, the key selects 7 |
| Session.StepKeepsValid | src/main.ts:444-633 | every event keeps the buffer black and white, the points non-negative and the accuracy in [0, 1] |
| Session.StepNeverLowersPoints | src/main.ts:466 | no event lowers the points |
| Session.LastPaintTransitions | src/main.ts:614-633 | the last painted pixel is cleared by release and leave, set by press, set on the image by a move while painting, and untouched by every other event |
| Session.RestartScenario | src/main.ts:389-466 | after a restart the first frame scores at most 10 points, an all-white frame scores nothing against the black buffer, and on a zero-area canvas the frame scores nothing and keeps the shown accuracy |

## Left out

- The circle brush (`arc` and `fill`, src/main.ts:691-694) is left out. Its coverage depends on the browser's anti-aliased rasteriser, so only the square brush is modelled.
- Video decoding, `drawImage` scaling and smoothing, and the `requestVideoFrameCallback` render loop are left out. A frame enters the model as the decoded pixel words.
- The DOM is left out: screens, buttons, the preview player, the volume and seek bars, and separator dragging.
- Keybind capture UI and `localStorage` persistence are left out. Keybinds and presets enter as lists.
- Pause and resume act only on the video, so the `PlayPause` action leaves the session unchanged. The restart button pauses the game video and shows the start screen (src/main.ts:479-482). Neither touches the session; the next start goes through `StartGame`.
- Number formatting (`toFixed`, `secondsToTimeString`) is left out. It affects only the displayed text.
- IEEE-754 doubles are replaced by exact reals. The model therefore has no rounding error in the accuracy ratio, the accumulated points or the letterbox layout. The same holds for stroke points: the program computes `Math.round(x0 + dx * t)` with `t = i / steps` in doubles (src/main.ts:677-679), and where the exact value is a .5 tie the double can land just below it. From x0 = 0 with dx = 11, dy = -42 (44 steps), at i = 30 the program gets 7.499999999999999 and draws column 7, while Stroke.Lerp gives 8. Such points are rare but exist, so a stroke in the model can differ from the program's by one pixel at those ties.
- Mapping.MapToBuffer requires a non-empty canvas and a rect of positive size. The program does not guard these cases. With a canvas width of 0, `scaleX` is 0/0 = NaN and so is `x` (src/main.ts:657, 660). Every comparison in the bounds check (src/main.ts:663) is then false, so the event carries on. `fillRect` ignores the NaN arguments, but the last painted pixel becomes `{x: NaN, y}` (src/main.ts:686). A height of 0 does the same on the y axis. The model does not reproduce these NaN coordinates.
- Session.OnFrame models a frame on a zero-area canvas as changing nothing. In the program `getImageData` throws there (src/main.ts:29), before the frame is scored (src/main.ts:45) and before the next frame is requested (src/main.ts:47). The render loop therefore stops, while the model keeps accepting frames that change nothing; the session state is the same either way.
- The program reads 32-bit pixels in host byte order. The model assumes little-endian, as all supported browsers are.
- The sort in the chord comparison uses JavaScript's default order, which compares UTF-16 code units. The model compares code points. The two differ only for characters outside the Basic Multilingual Plane.
- Session.RunBindings, Session.PresetSize and Session.KeyDown match chords by `Keys.SameKeys` (same keys, same multiplicities). `Keys.ChordsEqual` proves this equals the sort-and-compare test, so the two are interchangeable.
- Stroke.Interpolate leaves out the `steps === 0` case of the program's loop. The step count is at least 1, so that branch cannot run.
- Session.StartGame leaves the drag state and the shown accuracy as they were, as the program does. The buffer before the first start is not modelled.
- Brush size bounds and preset values come from number inputs and are read with `+` (src/main.ts:390, 599). The model treats them as integers. The preset input only sets a minimum of 1 (src/main.ts:326), so a value such as 2.5 is possible. `fillRect` with a fractional size anti-aliases edge pixels to grey. `Session.Valid`'s black-and-white clause, and so `Session.StepKeepsValid`, holds only for whole-number brush sizes.
- Session.Step carries no contract of its own. Its properties are stated by `StepKeepsValid`, `StepNeverLowersPoints` and `LastPaintTransitions`.

## Findings

| source | as written | input that shows it | evidently intended | confidence | as-written member | corrected member |
|---|---|---|---|---|---|---|
| src/main.ts:183-192 | The minimum-size handler disables the brush-size controls when the range collapses. It never enables them again, unlike the maximum-size handler (src/main.ts:194-205). | Set min = max = 5, so the controls are disabled. Then lower the minimum to 3. The range 3..5 has three sizes, but the controls stay disabled. | The controls are enabled exactly when minimum < maximum, whichever input changed. | medium, not executed | BrushSize.OnMinInputAsWritten | BrushSize.OnMinInput |

=== FILE: arith.dfy ===
/** Absolute value, minimum and maximum on integers, and small facts about
    integer and real arithmetic that the solver does not find on its own
    (non-linear multiplication, division and floors). */
module Arith {

  function Abs(n: int): nat {
    if n < 0 then -n else n
  }

  function Min(a: int, b: int): int {
    if a <= b then a else b
  }

  function Max(a: int, b: int): int {
    if a <= b then b else a
  }

  lemma MulLeft(a: int, b: int, m: nat)
    requires a <= b
    ensures m * a <= m * b
  {
  }

  /** Integer division by a positive divisor is determined by quotient and
      remainder. */
  lemma DivUnique(n: int, m: int, q: int, r: int)
    requires m > 0 && n == m * q + r && 0 <= r < m
    ensures n / m == q && n % m == r
  {
    var q', r' := n / m, n % m;
    assert m * (q - q') == r' - r;
    if q > q' {
      MulLeft(1, q - q', m);
    } else if q < q' {
      MulLeft(1, q' - q, m);
    }
  }

  /** Division by a positive divisor is monotone, and numerators at most one
      divisor apart give quotients at most one apart. */
  lemma DivMonotone(x: int, y: int, m: int)
    requires m > 0 && x <= y
    ensures x / m <= y / m
    ensures y <= x + m ==> y / m <= x / m + 1
  {
    var qx, qy := x / m, y / m;
    if qx > qy {
      MulLeft(qy + 1, qx, m);
    }
    if y <= x + m && qy > qx + 1 {
      MulLeft(qx + 2, qy, m);
    }
  }

  lemma SquareMonotone(s: nat, t: nat)
    requires s < t
    ensures s * s < t * t
  {
    MulLeft(s, t, s);
    MulLeft(s, t, t);
  }

  /** Real division by a non-zero divisor is the unique solution of the
      multiplication. */
  lemma RealDivChar(n: real, m: real, y: real)
    requires m != 0.0 && y * m == n
    ensures n / m == y
  {
  }

  lemma RealDivTimes(n: real, m: real)
    requires m != 0.0
    ensures (n / m) * m == n
  {
  }

  /** A proper fraction lies in `[0, 1)`. */
  lemma ProperFraction(r: int, m: int)
    requires 0 <= r < m
    ensures 0.0 <= r as real / m as real < 1.0
  {
    RealDivTimes(r as real, m as real);
  }

  /** The floor of an exact fraction is integer division. */
  lemma FloorOfFraction(n: int, m: int)
    requires m > 0
    ensures (n as real / m as real).Floor == n / m
  {
    var q, r := n / m, n % m;
    var f := r as real / m as real;
    RealDivTimes(r as real, m as real);
    assert (q as real + f) * m as real == n as real;
    RealDivChar(n as real, m as real, q as real + f);
    ProperFraction(r, m);
  }


  lemma RealCancel(m: real, x: real, y: real)
    requires m > 0.0 && m * x == m * y
    ensures x == y
  {
  }

  lemma RealMulLe(a: real, b: real, m: real)
    requires a <= b && m >= 0.0
    ensures a * m <= b * m
  {
  }

  lemma RealMulStrict(a: real, b: real, m: real)
    requires a < b && m > 0.0
    ensures a * m < b * m
  {
  }

  lemma MulEq(a: real, b: real, c: real, d: real)
    requires a == c && b == d
    ensures a * b == c * d
  {
  }
}

=== FILE: brush.dfy ===
/**
 Brush-size rules: the wheel and keyboard adjustments bounded by the
 configured minimum and maximum, the starting size, and the coupling between
 the minimum and maximum inputs on the start screen.
 */
module BrushSize {
  import opened Arith

  /** One step up, only while below the maximum. */
  function Increase(size: int, max: int): (s: int)
    ensures size <= s <= size + 1
    ensures s == size + 1 <==> size < max
  {
    if size < max then size + 1 else size
  }

  /** One step down, only while above the minimum. */
  function Decrease(size: int, min: int): (s: int)
    ensures size - 1 <= s <= size
    ensures s == size - 1 <==> size > min
  {
    if size > min then size - 1 else size
  }

  /** A wheel event: scrolling up (`deltaY < 0`) grows the brush, scrolling
      down shrinks it, a purely horizontal scroll leaves it. */
  function Wheel(size: int, deltaY: real, min: int, max: int): (s: int)
    ensures deltaY == 0.0 ==> s == size
    ensures s == size + 1 <==> deltaY < 0.0 && size < max
    ensures s == size - 1 <==> deltaY > 0.0 && size > min
    ensures s > size ==> deltaY < 0.0 && size < max
    ensures s < size ==> deltaY > 0.0 && size > min
    ensures Abs(s - size) <= 1
  {
    if deltaY < 0.0 then Increase(size, max)
    else if deltaY > 0.0 then Decrease(size, min)
    else size
  }

  /** A size within the bounds stays within them under every adjustment. */
  lemma AdjustStaysInRange(size: int, deltaY: real, min: int, max: int)
    requires min <= size <= max
    ensures min <= Increase(size, max) <= max
    ensures min <= Decrease(size, min) <= max
    ensures min <= Wheel(size, deltaY, min, max) <= max
  {
  }

  /** A size above the maximum (set by a preset) is never pushed further up,
      and one below the minimum never further down. */
  lemma AdjustNeverMovesAway(size: int, min: int, max: int)
    ensures size >= max ==> Increase(size, max) == size
    ensures size <= min ==> Decrease(size, min) == size
  {
  }

  /** The size at game start: the midpoint of the bounds, rounded down. */
  function StartSize(min: int, max: int): (s: int)
    ensures 2 * s <= min + max < 2 * s + 2
    ensures min <= max ==> min <= s <= max
  {
    (min + max) / 2
  }

  /** The two number inputs on the start screen and whether the brush-size
      keybind and preset controls are enabled. */
  datatype Limits = Limits(min: int, max: int, controlsEnabled: bool)

  /** The relation the controls are meant to keep: enabled exactly when
      there is more than one size to choose from. */
  predicate Consistent(l: Limits) {
    l.controlsEnabled <==> l.min < l.max
  }

  /** A new maximum: a maximum below the minimum drags the minimum down with
      it, and the controls are enabled exactly when the range is non-trivial. */
  function OnMaxInput(l: Limits, newMax: int): (l': Limits)
    ensures l'.max == newMax && l'.min == Min(l.min, newMax)
    ensures l'.min <= l'.max
    ensures Consistent(l')
  {
    if newMax < l.min then Limits(newMax, newMax, false)
    else if l.min == newMax then l.(max := newMax, controlsEnabled := false)
    else l.(max := newMax, controlsEnabled := true)
  }

  /** A new minimum as the input handler applies it: a minimum above the
      maximum drags the maximum up with it and the controls are disabled
      when the range collapses, but nothing ever enables them again. */
  function OnMinInputAsWritten(l: Limits, newMin: int): (l': Limits)
    ensures l'.min == newMin && l'.max == Max(newMin, l.max)
    ensures l'.min <= l'.max
    ensures l'.min == l'.max ==> !l'.controlsEnabled
    ensures l'.min < l'.max ==> l'.controlsEnabled == l.controlsEnabled
  {
    if newMin > l.max then Limits(newMin, newMin, false)
    else if newMin == l.max then l.(min := newMin, controlsEnabled := false)
    else l.(min := newMin)
  }

  /** Lowering the minimum below an equal maximum leaves the controls
      disabled although two sizes are now available. */
  lemma MinInputLeavesControlsDisabled()
    ensures var l := OnMinInputAsWritten(Limits(5, 5, false), 3);
      l.min < l.max && !l.controlsEnabled && !Consistent(l)
  {
  }

  /** A new minimum with the controls' state following the range, as the
      maximum's handler does. */
  function OnMinInput(l: Limits, newMin: int): (l': Limits)
    ensures l'.min == newMin && l'.max == Max(newMin, l.max)
    ensures l'.min <= l'.max
    ensures Consistent(l')
  {
    if newMin > l.max then Limits(newMin, newMin, false)
    else l.(min := newMin, controlsEnabled := newMin < l.max)
  }

  /** The two handlers agree except for the controls' state, and only when
      the new minimum is below the maximum. */
  lemma MinInputDifference(l: Limits, newMin: int)
    ensures OnMinInput(l, newMin).min == OnMinInputAsWritten(l, newMin).min
    ensures OnMinInput(l, newMin).max == OnMinInputAsWritten(l, newMin).max
    ensures OnMinInput(l, newMin) != OnMinInputAsWritten(l, newMin) ==>
      newMin < l.max && !l.controlsEnabled
  {
  }
}

=== FILE: common.dfy ===
/** An optional value, used for the nullable last-painted coordinate and for
    pointer events that fall outside the canvas. */
module Wrappers {

  datatype Option<+T> = None | Some(value: T)
}

/** Integer buffer coordinates and the on-screen bounding rectangle of the
    paint canvas. */
module Geometry {

  /** A pixel position in the paint buffer, `x` to the right, `y` down. */
  datatype Coord = Coord(x: int, y: int)

  /** A client-space rectangle as `getBoundingClientRect` reports it. */
  datatype Rect = Rect(left: real, top: real, width: real, height: real)
}

=== FILE: keys.dfy ===
/**
 Key chords: the list of keys a keydown event presses (modifiers in a fixed
 order, then the key itself), and the order-insensitive comparison of two
 chords, which sorts both lists and compares them element by element.
 */
module Keys {

  /** Lexicographic order on strings, a proper prefix first, as the default
      array sort compares them. */
  predicate StrLe(a: string, b: string)
    decreases |a|
  {
    if |a| == 0 then true
    else if |b| == 0 then false
    else if a[0] != b[0] then a[0] < b[0]
    else StrLe(a[1..], b[1..])
  }

  lemma {:induction false} StrLeTotal(a: string, b: string)
    ensures StrLe(a, b) || StrLe(b, a)
    decreases |a|
  {
    if |a| > 0 && |b| > 0 && a[0] == b[0] {
      StrLeTotal(a[1..], b[1..]);
    }
  }

  lemma {:induction false} StrLeReflexive(a: string)
    ensures StrLe(a, a)
    decreases |a|
  {
    if |a| > 0 {
      StrLeReflexive(a[1..]);
    }
  }

  lemma {:induction false} StrLeAntisymmetric(a: string, b: string)
    requires StrLe(a, b) && StrLe(b, a)
    ensures a == b
    decreases |a|
  {
    if |a| > 0 {
      StrLeAntisymmetric(a[1..], b[1..]);
      assert a == [a[0]] + a[1..] && b == [b[0]] + b[1..];
    }
  }

  lemma {:induction false} StrLeTransitive(a: string, b: string, c: string)
    requires StrLe(a, b) && StrLe(b, c)
    ensures StrLe(a, c)
    decreases |a|
  {
    if |a| > 0 && a[0] == b[0] && b[0] == c[0] {
      StrLeTransitive(a[1..], b[1..], c[1..]);
    }
  }

  predicate Sorted(s: seq<string>) {
    forall i, j :: 0 <= i < j < |s| ==> StrLe(s[i], s[j])
  }

  /** A string no greater than any element of a sorted list can go in
      front of it. */
  lemma ConsSorted(y: string, t: seq<string>)
    requires Sorted(t)
    requires forall k :: 0 <= k < |t| ==> StrLe(y, t[k])
    ensures Sorted([y] + t)
  {
    var r := [y] + t;
    forall i, j | 0 <= i < j < |r| ensures StrLe(r[i], r[j]) {
      if i == 0 {
        assert r[j] == t[j - 1];
      } else {
        assert r[i] == t[i - 1] && r[j] == t[j - 1];
      }
    }
  }

  /** Insertion of one string into a sorted list. */
  function Insert(x: string, s: seq<string>): (r: seq<string>)
    requires Sorted(s)
    ensures multiset(r) == multiset(s) + multiset{x}
    ensures Sorted(r)
  {
    if |s| == 0 then [x]
    else if StrLe(x, s[0]) then
      assert forall k :: 0 <= k < |s| ==> StrLe(x, s[k]) by {
        forall k | 0 <= k < |s| ensures StrLe(x, s[k]) {
          if k > 0 {
            StrLeTransitive(x, s[0], s[k]);
          }
        }
      }
      ConsSorted(x, s);
      [x] + s
    else
      var rest := Insert(x, s[1..]);
      assert s == [s[0]] + s[1..];
      assert forall k :: 0 <= k < |rest| ==> StrLe(s[0], rest[k]) by {
        StrLeTotal(x, s[0]);
        forall k | 0 <= k < |rest| ensures StrLe(s[0], rest[k]) {
          assert rest[k] in multiset(rest);
          if rest[k] != x {
            assert rest[k] in multiset(s[1..]);
            var m :| 0 <= m < |s[1..]| && s[1..][m] == rest[k];
            assert s[m + 1] == rest[k];
          }
        }
      }
      ConsSorted(s[0], rest);
      [s[0]] + rest
  }

  /** The sorted copy of a list. */
  function Sort(s: seq<string>): (r: seq<string>)
    ensures multiset(r) == multiset(s)
    ensures Sorted(r)
  {
    if |s| == 0 then []
    else
      assert s == [s[0]] + s[1..];
      Insert(s[0], Sort(s[1..]))
  }

  /** Two sorted lists with the same elements are the same list. */
  lemma {:induction false} SortedUnique(a: seq<string>, b: seq<string>)
    requires Sorted(a) && Sorted(b) && multiset(a) == multiset(b)
    ensures a == b
    decreases |a|
  {
    assert |a| == |multiset(a)| == |multiset(b)| == |b|;
    if |a| > 0 {
      SortedHeadsEqual(a, b);
      DropHead(a);
      DropHead(b);
      SortedUnique(a[1..], b[1..]);
      assert a == [a[0]] + a[1..] && b == [b[0]] + b[1..];
    }
  }

  /** Sorted lists with the same non-empty contents start alike. */
  lemma SortedHeadsEqual(a: seq<string>, b: seq<string>)
    requires Sorted(a) && Sorted(b) && multiset(a) == multiset(b)
    requires |a| > 0 && |b| > 0
    ensures a[0] == b[0]
  {
    assert a[0] in multiset(b) && b[0] in multiset(a);
    var j :| 0 <= j < |b| && b[j] == a[0];
    var i :| 0 <= i < |a| && a[i] == b[0];
    StrLeReflexive(a[0]);
    StrLeReflexive(b[0]);
    assert StrLe(b[0], b[j]) && StrLe(a[0], a[i]);
    StrLeAntisymmetric(a[0], b[0]);
  }

  lemma DropHead(a: seq<string>)
    requires |a| > 0
    ensures multiset(a[1..]) == multiset(a) - multiset{a[0]}
  {
    assert a == [a[0]] + a[1..];
    assert multiset(a) == multiset{a[0]} + multiset(a[1..]);
  }

  /** Two chords hold the same keys, each as often, in any order. */
  predicate SameKeys(a: seq<string>, b: seq<string>) {
    multiset(a) == multiset(b)
  }

  /** Chord equality as the comparison computes it: equal lengths and equal
      sorted copies. It holds exactly when the chords hold the same keys. */
  function ChordsEqual(a: seq<string>, b: seq<string>): (r: bool)
    ensures r <==> SameKeys(a, b)
  {
    assert multiset(a) == multiset(b) ==> |a| == |b| && Sort(a) == Sort(b) by {
      if multiset(a) == multiset(b) {
        SortedUnique(Sort(a), Sort(b));
        assert |a| == |multiset(a)| == |multiset(b)| == |b|;
      }
    }
    |a| == |b| && Sort(a) == Sort(b)
  }

  /** Chord comparison: equal lengths, then the sorted lists element by
      element. Two chords are equal exactly when they hold the same keys,
      in any order. */
  method KeybindsEqual(a: seq<string>, b: seq<string>) returns (eq: bool)
    ensures eq <==> multiset(a) == multiset(b)
    ensures eq == ChordsEqual(a, b)
  {
    if |a| != |b| {
      assert |multiset(a)| != |multiset(b)|;
      return false;
    }
    var aSorted := Sort(a);
    var bSorted := Sort(b);
    var i := 0;
    while i < |aSorted|
      invariant 0 <= i <= |aSorted| == |bSorted|
      invariant forall j :: 0 <= j < i ==> aSorted[j] == bSorted[j]
    {
      if aSorted[i] != bSorted[i] {
        if multiset(a) == multiset(b) {
          SortedUnique(aSorted, bSorted);
        }
        return false;
      }
      i := i + 1;
    }
    assert aSorted == bSorted;
    return true;
  }

  /** The modifier keys, in the order a chord lists them. */
  const MODIFIERS: seq<string> := ["Control", "Alt", "Shift", "Meta"]

  predicate IsModifier(k: string) {
    k in MODIFIERS
  }

  /** What a keydown event reports: the key's name and the modifier flags. */
  datatype KeyEvent = KeyEvent(key: string, ctrlKey: bool, altKey: bool, shiftKey: bool, metaKey: bool)

  function Flag(b: bool): nat {
    if b then 1 else 0
  }

  predicate NoDuplicates(s: seq<string>) {
    forall i, j :: 0 <= i < j < |s| ==> s[i] != s[j]
  }

  /** The held modifiers, in the order Control, Alt, Shift, Meta. */
  function HeldModifiers(e: KeyEvent): (m: seq<string>)
    ensures |m| == Flag(e.ctrlKey) + Flag(e.altKey) + Flag(e.shiftKey) + Flag(e.metaKey)
    ensures ("Control" in m <==> e.ctrlKey) && ("Alt" in m <==> e.altKey)
    ensures ("Shift" in m <==> e.shiftKey) && ("Meta" in m <==> e.metaKey)
  {
    var c := if e.ctrlKey then ["Control"] else [];
    var a := if e.altKey then ["Alt"] else [];
    var s := if e.shiftKey then ["Shift"] else [];
    var t := if e.metaKey then ["Meta"] else [];
    c + a + s + t
  }

  /** Modifiers only, in strictly increasing rank. */
  predicate Ranked(m: seq<string>) {
    && (forall i :: 0 <= i < |m| ==> IsModifier(m[i]))
    && (forall i, j :: 0 <= i < j < |m| ==> Rank(m[i]) < Rank(m[j]))
  }

  /** The held modifiers are modifiers, listed in strictly increasing rank. */
  lemma HeldModifiersRanked(e: KeyEvent)
    ensures Ranked(HeldModifiers(e))
  {
    var c := if e.ctrlKey then ["Control"] else [];
    var a := if e.altKey then ["Alt"] else [];
    var s := if e.shiftKey then ["Shift"] else [];
    var t := if e.metaKey then ["Meta"] else [];
    assert IsModifier("Control") && IsModifier("Alt") && IsModifier("Shift") && IsModifier("Meta");
    assert Rank("Control") == 0 && Rank("Alt") == 1 && Rank("Shift") == 2 && Rank("Meta") == 3;
    RankedConcat(c, a, 1, 2);
    RankedConcat(c + a, s, 2, 3);
    RankedConcat(c + a + s, t, 3, 4);
  }

  /** Two ranked lists, every rank of the first below `r` and every rank
      of the second in `[r, s)`, concatenate to a ranked list whose ranks
      are all below `s`. */
  lemma RankedConcat(x: seq<string>, y: seq<string>, r: nat, s: nat)
    requires Ranked(x) && Ranked(y) && r <= s
    requires forall i :: 0 <= i < |x| ==> Rank(x[i]) < r
    requires forall i :: 0 <= i < |y| ==> r <= Rank(y[i]) < s
    ensures Ranked(x + y)
    ensures forall i :: 0 <= i < |x + y| ==> Rank((x + y)[i]) < s
  {
    var xy := x + y;
    forall i, j | 0 <= i < j < |xy| ensures Rank(xy[i]) < Rank(xy[j]) {
      if j < |x| {
        assert xy[i] == x[i] && xy[j] == x[j];
      } else if i >= |x| {
        assert xy[i] == y[i - |x|] && xy[j] == y[j - |x|];
      } else {
        assert xy[i] == x[i] && xy[j] == y[j - |x|];
      }
    }
  }

  /** The chord of a keydown event: the held modifiers in the order Control,
      Alt, Shift, Meta, then the key itself unless it is a modifier. */
  function PressedKeys(e: KeyEvent): (keys: seq<string>)
    ensures |keys| == Flag(e.ctrlKey) + Flag(e.altKey) + Flag(e.shiftKey) + Flag(e.metaKey)
                      + Flag(!IsModifier(e.key))
    ensures ("Control" in keys <==> e.ctrlKey) && ("Alt" in keys <==> e.altKey)
    ensures ("Shift" in keys <==> e.shiftKey) && ("Meta" in keys <==> e.metaKey)
    ensures !IsModifier(e.key) ==> |keys| > 0 && keys[|keys| - 1] == e.key
  {
    var m := HeldModifiers(e);
    if IsModifier(e.key) then m else m + [e.key]
  }

  /** A chord lists every key at most once, all but its last entry are
      modifiers, and the modifiers come in the canonical order. */
  lemma PressedKeysCanonical(e: KeyEvent)
    ensures var keys := PressedKeys(e);
      && (forall i :: 0 <= i < |keys| - 1 ==> IsModifier(keys[i]))
      && NoDuplicates(keys)
      && (forall i, j :: 0 <= i < j < |keys| && IsModifier(keys[j]) ==>
            Rank(keys[i]) < Rank(keys[j]))
  {
    var m := HeldModifiers(e);
    HeldModifiersRanked(e);
    RankedHasNoDuplicates(m);
    if !IsModifier(e.key) {
      AppendKeyToRanked(m, e.key);
    }
  }

  /** Modifiers in strictly increasing rank are pairwise distinct. */
  lemma RankedHasNoDuplicates(m: seq<string>)
    requires Ranked(m)
    ensures NoDuplicates(m)
  {
  }

  /** A non-modifier key after ranked modifiers keeps the chord duplicate
      free and the modifiers in order. */
  lemma AppendKeyToRanked(m: seq<string>, key: string)
    requires Ranked(m)
    requires !IsModifier(key)
    ensures NoDuplicates(m + [key])
    ensures forall i, j :: 0 <= i < j < |m| + 1 && IsModifier((m + [key])[j]) ==>
      Rank((m + [key])[i]) < Rank((m + [key])[j])
    ensures forall i :: 0 <= i < |m| ==> IsModifier((m + [key])[i])
  {
    var keys := m + [key];
    forall i, j | 0 <= i < j < |keys| ensures keys[i] != keys[j] {
      if j < |m| {
        assert Rank(m[i]) < Rank(m[j]);
      } else {
        assert IsModifier(keys[i]);
      }
    }
  }

  /** The position of a modifier in the canonical order. */
  function Rank(k: string): nat {
    if k == "Control" then 0
    else if k == "Alt" then 1
    else if k == "Shift" then 2
    else 3
  }
}

=== FILE: mapping.dfy ===
/**
 Mapping a pointer position in client space to a paint-buffer pixel when the
 canvas is shown with `object-fit: contain`: the buffer keeps its aspect ratio,
 fills the bounding rectangle along one axis and is centred along the other.
 Arithmetic is on exact reals.
 */
module Mapping {
  import opened Wrappers
  import opened Geometry
  import opened Arith

  /** Where the buffer's image sits inside the bounding rectangle, relative
      to the rectangle's top-left corner. */
  datatype Layout = Layout(renderWidth: real, renderHeight: real, offsetX: real, offsetY: real)

  predicate ValidGeometry(w: nat, h: nat, rect: Rect) {
    w > 0 && h > 0 && rect.width > 0.0 && rect.height > 0.0
  }

  /** The canvas is wider than the rectangle when `w / h > rect.width / rect.height`. */
  lemma {:induction false} WiderIff(w: nat, h: nat, rect: Rect)
    requires ValidGeometry(w, h, rect)
    ensures (w as real / h as real > rect.width / rect.height) <==>
      (w as real * rect.height > rect.width * h as real)
  {
    var ca, ra := w as real / h as real, rect.width / rect.height;
    RealDivTimes(w as real, h as real);
    RealDivTimes(rect.width, rect.height);
    if ca > ra {
      RealMulStrict(ra, ca, h as real * rect.height);
      assert ca * (h as real * rect.height) == w as real * rect.height;
      assert ra * (h as real * rect.height) == rect.width * h as real;
    } else {
      RealMulLe(ca, ra, h as real * rect.height);
      assert ca * (h as real * rect.height) == w as real * rect.height;
      assert ra * (h as real * rect.height) == rect.width * h as real;
    }
  }

  /** The letterbox layout: the image keeps the buffer's aspect ratio, spans
      the rectangle along one axis, fits inside it along the other, and is
      centred. */
  function ContainLayout(w: nat, h: nat, rect: Rect): (l: Layout)
    requires ValidGeometry(w, h, rect)
    ensures 0.0 < l.renderWidth <= rect.width && 0.0 < l.renderHeight <= rect.height
    ensures l.renderWidth == rect.width || l.renderHeight == rect.height
    ensures l.renderWidth * h as real == l.renderHeight * w as real
    ensures l.offsetX == (rect.width - l.renderWidth) / 2.0
    ensures l.offsetY == (rect.height - l.renderHeight) / 2.0
  {
    var canvasAspect := w as real / h as real;
    var rectAspect := rect.width / rect.height;
    WiderIff(w, h, rect);
    RealDivTimes(w as real, h as real);
    if canvasAspect > rectAspect then
      var renderWidth := rect.width;
      var renderHeight := rect.width / canvasAspect;
      RealDivTimes(rect.width, canvasAspect);
      assert renderHeight * w as real == rect.width * h as real by {
        assert renderHeight * canvasAspect == rect.width;
        assert renderHeight * w as real == renderHeight * canvasAspect * h as real;
      }
      assert renderHeight < rect.height by {
        if renderHeight >= rect.height {
          RealMulLe(rect.height, renderHeight, w as real);
        }
      }
      Layout(renderWidth, renderHeight, 0.0, (rect.height - renderHeight) / 2.0)
    else
      var renderHeight := rect.height;
      var renderWidth := rect.height * canvasAspect;
      assert renderWidth * h as real == rect.height * w as real;
      assert renderWidth <= rect.width by {
        if renderWidth > rect.width {
          RealMulStrict(rect.width, renderWidth, h as real);
        }
      }
      Layout(renderWidth, renderHeight, (rect.width - renderWidth) / 2.0, 0.0)
  }

  /** One axis of the mapping: the position relative to the image, scaled
      by `n / extent` and floored. It lands in `[0, n)` exactly when the
      position lies within the rendered extent, and the position always lies
      in the cell of the pixel it lands on. */
  function AxisToPixel(u: real, extent: real, n: nat): (v: int)
    requires extent > 0.0 && n > 0
    ensures 0 <= v < n <==> 0.0 <= u < extent
    ensures PixelStart(v, extent, n) <= u < PixelStart(v + 1, extent, n)
  {
    ScaledWithin(u, extent, n);
    AxisCell(u, extent, n);
    (u * (n as real / extent)).Floor
  }

  /** Where pixel `p` of `n` begins along a rendered extent of length
      `extent`. */
  function PixelStart(p: int, extent: real, n: nat): real
    requires n > 0
  {
    p as real * (extent / n as real)
  }

  /** The on-screen pixel pitch and the scale factor are reciprocal. */
  lemma PitchTimesScale(extent: real, n: nat)
    requires extent > 0.0 && n > 0
    ensures (extent / n as real) * (n as real / extent) == 1.0
  {
    var pitch := extent / n as real;
    var scale := n as real / extent;
    RealDivTimes(extent, n as real);
    RealDivTimes(n as real, extent);
    var e, m := extent, n as real;
    assert pitch * m == e && scale * e == m;
    assert (pitch * scale) * (e * m) == (pitch * m) * (scale * e);
    MulEq(pitch * m, scale * e, e, m);
    RealCancel(e * m, pitch * scale, 1.0);
  }

  /** The floored scaled position names the pixel cell holding the position. */
  lemma AxisCell(u: real, extent: real, n: nat)
    requires extent > 0.0 && n > 0
    ensures var v := (u * (n as real / extent)).Floor;
      PixelStart(v, extent, n) <= u < PixelStart(v + 1, extent, n)
  {
    var pitch := extent / n as real;
    var scale := n as real / extent;
    var t := u * scale;
    var v := t.Floor;
    PitchTimesScale(extent, n);
    RealDivTimes(extent, n as real);
    assert pitch > 0.0;
    assert t * pitch == u by {
      assert t * pitch == u * (pitch * scale);
    }
    RealMulLe(v as real, t, pitch);
    RealMulStrict(t, (v + 1) as real, pitch);
  }

  lemma ScaledWithin(u: real, extent: real, n: nat)
    requires extent > 0.0 && n > 0
    ensures 0.0 <= u * (n as real / extent) < n as real <==> 0.0 <= u < extent
  {
    var scale := n as real / extent;
    RealDivTimes(n as real, extent);
    assert scale > 0.0;
    if 0.0 <= u < extent {
      RealMulStrict(u, extent, scale);
      RealMulLe(0.0, u, scale);
    } else if u < 0.0 {
      RealMulStrict(u, 0.0, scale);
    } else {
      RealMulLe(extent, u, scale);
    }
  }

  /** The pixel under the pointer, or `None` when the pointer is over a
      letterbox bar (or otherwise off the image): nothing is then painted. */
  function MapToBuffer(w: nat, h: nat, rect: Rect, clientX: real, clientY: real): (r: Option<Coord>)
    requires ValidGeometry(w, h, rect)
    ensures r.Some? ==> 0 <= r.value.x < w && 0 <= r.value.y < h
    ensures var l := ContainLayout(w, h, rect);
      r.Some? ==>
        && PixelStart(r.value.x, l.renderWidth, w) <= clientX - rect.left - l.offsetX
        && clientX - rect.left - l.offsetX < PixelStart(r.value.x + 1, l.renderWidth, w)
        && PixelStart(r.value.y, l.renderHeight, h) <= clientY - rect.top - l.offsetY
        && clientY - rect.top - l.offsetY < PixelStart(r.value.y + 1, l.renderHeight, h)
    ensures var l := ContainLayout(w, h, rect);
      r.Some? <==>
        && l.offsetX <= clientX - rect.left < l.offsetX + l.renderWidth
        && l.offsetY <= clientY - rect.top < l.offsetY + l.renderHeight
  {
    var l := ContainLayout(w, h, rect);
    var x := AxisToPixel(clientX - rect.left - l.offsetX, l.renderWidth, w);
    var y := AxisToPixel(clientY - rect.top - l.offsetY, l.renderHeight, h);
    if x < 0 || x >= w || y < 0 || y >= h then None
    else Some(Coord(x, y))
  }

  /** Both axes are scaled by the same factor: the mapping preserves the
      aspect ratio. */
  lemma UniformScale(w: nat, h: nat, rect: Rect)
    requires ValidGeometry(w, h, rect)
    ensures var l := ContainLayout(w, h, rect);
      w as real / l.renderWidth == h as real / l.renderHeight
  {
    var l := ContainLayout(w, h, rect);
    var sx := w as real / l.renderWidth;
    RealDivTimes(w as real, l.renderWidth);
    assert sx * l.renderHeight * w as real == sx * l.renderWidth * h as real;
    assert sx * l.renderHeight * w as real == w as real * h as real;
    RealCancel(w as real, sx * l.renderHeight, h as real);
    RealDivChar(h as real, l.renderHeight, sx);
  }

  /** With matching aspect ratios there is no letterbox: both offsets are
      zero and the pointer position is scaled linearly. */
  lemma NoLetterbox(w: nat, h: nat, rect: Rect, clientX: real, clientY: real)
    requires ValidGeometry(w, h, rect)
    requires w as real * rect.height == rect.width * h as real
    ensures var l := ContainLayout(w, h, rect);
      && l.offsetX == 0.0 && l.offsetY == 0.0
      && l.renderWidth == rect.width && l.renderHeight == rect.height
    ensures var x := ((clientX - rect.left) * (w as real / rect.width)).Floor;
      var y := ((clientY - rect.top) * (h as real / rect.height)).Floor;
      MapToBuffer(w, h, rect, clientX, clientY) ==
        if 0 <= x < w && 0 <= y < h then Some(Coord(x, y)) else None
  {
    WiderIff(w, h, rect);
    var l := ContainLayout(w, h, rect);
    assert l.renderHeight == rect.height;
    assert l.renderWidth * h as real == rect.width * h as real;
    RealCancel(h as real, l.renderWidth, rect.width);
    assert l.offsetX == 0.0 && l.offsetY == 0.0;
    assert AxisToPixel(clientX - rect.left - l.offsetX, l.renderWidth, w)
        == ((clientX - rect.left) * (w as real / rect.width)).Floor;
    assert AxisToPixel(clientY - rect.top - l.offsetY, l.renderHeight, h)
        == ((clientY - rect.top) * (h as real / rect.height)).Floor;
  }

  /** A 100 x 50 buffer shown in a 100 x 100 square: the centre of the square
      is the centre of the buffer, and the top-left corner lies in the top
      letterbox bar. */
  lemma LetterboxExample()
    ensures MapToBuffer(100, 50, Rect(0.0, 0.0, 100.0, 100.0), 50.0, 50.0) == Some(Coord(50, 25))
    ensures MapToBuffer(100, 50, Rect(0.0, 0.0, 100.0, 100.0), 0.0, 0.0) == None
  {
    var rect := Rect(0.0, 0.0, 100.0, 100.0);
    var l := ContainLayout(100, 50, rect);
    assert l == Layout(100.0, 50.0, 0.0, 25.0);
  }

  /** The centre of pixel `p` of `n`, as a distance along a rendered
      extent of length `extent`. */
  function PixelCentre(p: int, extent: real, n: nat): real
    requires n > 0
  {
    (p as real + 0.5) * (extent / n as real)
  }

  /** On one axis, the centre of pixel `p` of the rendered extent maps back
      to `p`. */
  lemma AxisRoundTrip(p: int, extent: real, n: nat)
    requires extent > 0.0 && 0 <= p < n
    ensures AxisToPixel(PixelCentre(p, extent, n), extent, n) == p
  {
    var pitch := extent / n as real;
    var scale := n as real / extent;
    PitchTimesScale(extent, n);
    assert (p as real + 0.5) * pitch * scale == p as real + 0.5;
  }

  /** The centre of every buffer pixel, as drawn on screen, maps back to
      that pixel. */
  lemma PixelCentreRoundTrip(w: nat, h: nat, rect: Rect, px: int, py: int)
    requires ValidGeometry(w, h, rect) && 0 <= px < w && 0 <= py < h
    ensures var l := ContainLayout(w, h, rect);
      MapToBuffer(w, h, rect,
        rect.left + l.offsetX + PixelCentre(px, l.renderWidth, w),
        rect.top + l.offsetY + PixelCentre(py, l.renderHeight, h)) == Some(Coord(px, py))
  {
    var l := ContainLayout(w, h, rect);
    var u := PixelCentre(px, l.renderWidth, w);
    var v := PixelCentre(py, l.renderHeight, h);
    AxisRoundTrip(px, l.renderWidth, w);
    AxisRoundTrip(py, l.renderHeight, h);
    MapFromAxes(w, h, rect, rect.left + l.offsetX + u, rect.top + l.offsetY + v, u, v);
  }

  /** `MapToBuffer` in terms of the pointer's position relative to the image. */
  lemma MapFromAxes(w: nat, h: nat, rect: Rect, clientX: real, clientY: real, u: real, v: real)
    requires ValidGeometry(w, h, rect)
    requires var l := ContainLayout(w, h, rect);
      clientX - rect.left - l.offsetX == u && clientY - rect.top - l.offsetY == v
    ensures var l := ContainLayout(w, h, rect);
      var x := AxisToPixel(u, l.renderWidth, w);
      var y := AxisToPixel(v, l.renderHeight, h);
      MapToBuffer(w, h, rect, clientX, clientY) ==
        if 0 <= x < w && 0 <= y < h then Some(Coord(x, y)) else None
  {
  }
}

=== FILE: pixels.dfy ===
/**
 Packed 32-bit pixels as the game sees them through a `Uint32Array` view of
 canvas image data (little-endian RGBA: byte 0 is red, byte 3 is alpha), the
 black/white thresholding rule applied to every video frame, the per-channel
 colour inversion of the invert tool, and the two paint colours.
 */
module Pixels {

  /** Opaque black, `0xFF000000` (alpha 255, red = green = blue = 0). */
  const BLACK: bv32 := 0xFF00_0000
  /** Opaque white, `0xFFFFFFFF`. */
  const WHITE: bv32 := 0xFFFF_FFFF
  /** Words strictly below this value become black, all others white. */
  const THRESHOLD: bv32 := 0xFF7F_7F7F

  /** A pixel that is one of the two colours the game ever writes. */
  predicate IsBinary(p: bv32) {
    p == BLACK || p == WHITE
  }

  predicate AllBinary(ps: seq<bv32>) {
    forall i :: 0 <= i < |ps| ==> IsBinary(ps[i])
  }

  /** The rounding of one pixel: an unsigned comparison of the packed word. */
  function ThresholdPixel(p: bv32): (q: bv32)
    ensures IsBinary(q)
    ensures q == BLACK <==> p < THRESHOLD
    ensures q == WHITE <==> THRESHOLD <= p
  {
    if p < THRESHOLD then BLACK else WHITE
  }

  /** Black lies below the threshold and white above it, so a thresholded
      pixel is a fixed point of the rule. */
  lemma ThresholdPixelIdempotent(p: bv32)
    ensures ThresholdPixel(ThresholdPixel(p)) == ThresholdPixel(p)
    ensures IsBinary(p) ==> ThresholdPixel(p) == p
  {
  }

  /** The whole-frame rounding: a frame of the same size holding only black
      and white, black exactly where the source word is below the threshold. */
  function Threshold(frame: seq<bv32>): (r: seq<bv32>)
    ensures |r| == |frame|
    ensures AllBinary(r)
    ensures forall i :: 0 <= i < |r| ==> (r[i] == BLACK <==> frame[i] < THRESHOLD)
  {
    seq(|frame|, i requires 0 <= i < |frame| => ThresholdPixel(frame[i]))
  }

  /** Thresholding twice is thresholding once, and a frame that is already
      black and white is left as it is. */
  lemma {:induction false} ThresholdIdempotent(frame: seq<bv32>)
    ensures Threshold(Threshold(frame)) == Threshold(frame)
    ensures AllBinary(frame) ==> Threshold(frame) == frame
  {
    var once := Threshold(frame);
    forall i | 0 <= i < |frame|
      ensures Threshold(once)[i] == once[i]
    {
      ThresholdPixelIdempotent(frame[i]);
    }
    if AllBinary(frame) {
      forall i | 0 <= i < |frame|
        ensures once[i] == frame[i]
      {
        ThresholdPixelIdempotent(frame[i]);
      }
    }
  }

  /** The in-place loop over the frame's words, as the renderer runs it. */
  method RoundFrame(frame: seq<bv32>) returns (out: seq<bv32>)
    ensures out == Threshold(frame)
  {
    out := frame;
    var i := 0;
    while i < |out|
      invariant 0 <= i <= |out| == |frame|
      invariant forall j :: 0 <= j < i ==> out[j] == ThresholdPixel(frame[j])
      invariant forall j :: i <= j < |out| ==> out[j] == frame[j]
    {
      out := out[i := if out[i] < THRESHOLD then BLACK else WHITE];
      i := i + 1;
    }
  }

  /** Channel `k` (0 red, 1 green, 2 blue, 3 alpha) of a little-endian word. */
  function Channel(p: bv32, k: nat): bv32
    requires k < 4
  {
    if k == 0 then p & 0xFF
    else if k == 1 then (p >> 8) & 0xFF
    else if k == 2 then (p >> 16) & 0xFF
    else p >> 24
  }

  /** The invert tool on one pixel: each of red, green and blue becomes
      `255 - c`, alpha is kept. On the packed word that is an exclusive-or. */
  function InvertPixel(p: bv32): (q: bv32)
    ensures Channel(q, 0) == 255 - Channel(p, 0)
    ensures Channel(q, 1) == 255 - Channel(p, 1)
    ensures Channel(q, 2) == 255 - Channel(p, 2)
    ensures Channel(q, 3) == Channel(p, 3)
    ensures p == BLACK <==> q == WHITE
    ensures p == WHITE <==> q == BLACK
  {
    p ^ 0x00FF_FFFF
  }

  lemma InvertPixelInvolution(p: bv32)
    ensures InvertPixel(InvertPixel(p)) == p
  {
  }

  /** The paint colour currently selected; white at game start. */
  datatype PaintColor = Black | White

  /** The word a canvas `fillRect` with `#000` or `#fff` writes. */
  function Word(c: PaintColor): (p: bv32)
    ensures IsBinary(p)
    ensures p == BLACK <==> c == Black
    ensures Channel(p, 3) == 255
    ensures c == Black ==> Channel(p, 0) == Channel(p, 1) == Channel(p, 2) == 0
    ensures c == White ==> Channel(p, 0) == Channel(p, 1) == Channel(p, 2) == 255
  {
    match c
    case Black => BLACK
    case White => WHITE
  }

  /** The swap-colours tool. */
  function Swap(c: PaintColor): (d: PaintColor)
    ensures d != c
    ensures Word(d) == InvertPixel(Word(c))
  {
    match c
    case Black => White
    case White => Black
  }
}

=== FILE: raster.dfy ===
/**
 The paint buffer: a `width x height` grid of packed pixels stored row by row,
 and the operations the paint tools perform on it (square brush stamp, fill,
 invert).
 */
module Raster {
  import opened Pixels
  import opened Geometry
  import opened Arith

  datatype Raster = Raster(width: nat, height: nat, pixels: seq<bv32>) {

    predicate Valid() {
      |pixels| == width * height
    }

    predicate InBounds(x: int, y: int) {
      0 <= x < width && 0 <= y < height
    }

    /** The pixel in column `x` of row `y`. */
    function At(x: int, y: int): bv32
      requires Valid() && InBounds(x, y)
    {
      IndexInRange(width, height, x, y);
      pixels[y * width + x]
    }
  }

  lemma IndexInRange(w: nat, h: nat, x: int, y: int)
    requires 0 <= x < w && 0 <= y < h
    ensures 0 <= y * w + x < w * h
  {
    assert y * w + x < (y + 1) * w;
    MulLeft(y + 1, h, w);
  }

  /** Row-major indexing is a bijection between the coordinates inside the
      grid and the indices of the pixel sequence. */
  lemma {:induction false} IndexDecompose(w: nat, h: nat, x: int, y: int)
    requires 0 <= x < w && 0 <= y < h
    ensures (y * w + x) / w == y && (y * w + x) % w == x
  {
    var k := y * w + x;
    var q, r := k / w, k % w;
    assert k == q * w + r;
    assert (q - y) * w == x - r;
    if q > y {
      MulLeft(1, q - y, w);
    } else if q < y {
      MulLeft(1, y - q, w);
    }
  }

  lemma IndexCompose(w: nat, h: nat, k: int)
    requires 0 <= k < w * h
    ensures w > 0 && 0 <= k % w < w && 0 <= k / w < h
    ensures (k / w) * w + k % w == k
  {
    if k / w >= h {
      MulLeft(h, k / w, w);
    }
  }

  /** A raster of the given size filled with one word. */
  function Blank(w: nat, h: nat, color: bv32): (b: Raster)
    ensures b.Valid() && b.width == w && b.height == h
    ensures forall x, y :: b.InBounds(x, y) ==> b.At(x, y) == color
  {
    var b := Raster(w, h, seq(w * h, _ => color));
    assert forall x, y :: b.InBounds(x, y) ==> b.At(x, y) == color by {
      forall x, y | b.InBounds(x, y) ensures b.At(x, y) == color {
        IndexInRange(w, h, x, y);
      }
    }
    b
  }

  /** The whole-canvas fill tool: every pixel takes the colour. */
  function Fill(b: Raster, color: bv32): (b': Raster)
    requires b.Valid()
    ensures b'.Valid() && b'.width == b.width && b'.height == b.height
    ensures forall x, y :: b.InBounds(x, y) ==> b'.At(x, y) == color
  {
    Blank(b.width, b.height, color)
  }

  /** The pixels a `fillRect` covers along one axis: `[start, start + len)`,
      or `[start + len, start)` for a negative length, which canvas
      normalises. */
  predicate InSpan(p: int, start: int, len: int) {
    if len >= 0 then start <= p < start + len else start + len <= p < start
  }

  /** Whether pixel `(x, y)` lies in the `size x size` square whose top-left
      corner is `floor(size / 2)` up and left of `c`. */
  predicate InSquare(c: Coord, size: int, x: int, y: int) {
    var r := size / 2;
    InSpan(x, c.x - r, size) && InSpan(y, c.y - r, size)
  }

  /** A brush of size one or more always covers its own centre, so every
      point of a stroke is painted. */
  lemma SquareCoversCentre(c: Coord, size: int)
    requires size >= 1
    ensures InSquare(c, size, c.x, c.y)
  {
  }

  /** The square brush: a clipped `fillRect` of the colour. */
  function Stamp(b: Raster, c: Coord, size: int, color: bv32): (b': Raster)
    requires b.Valid()
    ensures b'.Valid() && b'.width == b.width && b'.height == b.height
    ensures forall x, y :: b.InBounds(x, y) ==>
      b'.At(x, y) == if InSquare(c, size, x, y) then color else b.At(x, y)
  {
    var n := |b.pixels|;
    var b' := b.(pixels := seq(n, k requires 0 <= k < n =>
      IndexCompose(b.width, b.height, k);
      if InSquare(c, size, k % b.width, k / b.width) then color else b.pixels[k]));
    assert forall x, y :: b.InBounds(x, y) ==>
      b'.At(x, y) == if InSquare(c, size, x, y) then color else b.At(x, y) by {
      forall x, y | b.InBounds(x, y)
        ensures b'.At(x, y) == if InSquare(c, size, x, y) then color else b.At(x, y)
      {
        IndexInRange(b.width, b.height, x, y);
        IndexDecompose(b.width, b.height, x, y);
      }
    }
    b'
  }

  /** Stamping is idempotent: the second stamp of the same colour at the
      same place changes nothing. */
  lemma StampIdempotent(b: Raster, c: Coord, size: int, color: bv32)
    requires b.Valid()
    ensures Stamp(Stamp(b, c, size, color), c, size, color) == Stamp(b, c, size, color)
  {
  }

  /** Whether some stamp of a stroke covers pixel `(x, y)`. */
  predicate Covered(stamps: seq<Coord>, size: int, x: int, y: int) {
    exists i :: 0 <= i < |stamps| && InSquare(stamps[i], size, x, y)
  }

  /** The brush applied at every point of a stroke, first to last: a pixel
      ends up in the colour exactly when some stamp covers it, and is left
      as it was otherwise. */
  function ApplyStamps(b: Raster, stamps: seq<Coord>, size: int, color: bv32): (b': Raster)
    requires b.Valid()
    ensures b'.Valid() && b'.width == b.width && b'.height == b.height
    ensures forall x, y :: b.InBounds(x, y) ==>
      b'.At(x, y) == if Covered(stamps, size, x, y) then color else b.At(x, y)
    decreases |stamps|
  {
    if |stamps| == 0 then b
    else
      var first := Stamp(b, stamps[0], size, color);
      var b' := ApplyStamps(first, stamps[1..], size, color);
      assert forall x, y :: b.InBounds(x, y) ==>
        (Covered(stamps, size, x, y) <==>
         InSquare(stamps[0], size, x, y) || Covered(stamps[1..], size, x, y)) by {
        forall x, y | b.InBounds(x, y) && Covered(stamps, size, x, y)
          ensures InSquare(stamps[0], size, x, y) || Covered(stamps[1..], size, x, y)
        {
          var i :| 0 <= i < |stamps| && InSquare(stamps[i], size, x, y);
          if i > 0 {
            assert stamps[1..][i - 1] == stamps[i];
          }
        }
        forall x, y | b.InBounds(x, y) && Covered(stamps[1..], size, x, y)
          ensures Covered(stamps, size, x, y)
        {
          var i :| 0 <= i < |stamps[1..]| && InSquare(stamps[1..][i], size, x, y);
          assert stamps[i + 1] == stamps[1..][i];
        }
      }
      b'
  }

  /** The invert tool over the whole buffer: red, green and blue of every
      pixel become `255 - c`, alpha is kept, black and white trade places. */
  function Invert(b: Raster): (b': Raster)
    requires b.Valid()
    ensures b'.Valid() && b'.width == b.width && b'.height == b.height
    ensures forall k :: 0 <= k < |b.pixels| ==>
      && Channel(b'.pixels[k], 0) == 255 - Channel(b.pixels[k], 0)
      && Channel(b'.pixels[k], 1) == 255 - Channel(b.pixels[k], 1)
      && Channel(b'.pixels[k], 2) == 255 - Channel(b.pixels[k], 2)
      && Channel(b'.pixels[k], 3) == Channel(b.pixels[k], 3)
    ensures forall k :: 0 <= k < |b.pixels| ==>
      (b'.pixels[k] == BLACK <==> b.pixels[k] == WHITE) &&
      (b'.pixels[k] == WHITE <==> b.pixels[k] == BLACK)
  {
    b.(pixels := seq(|b.pixels|, k requires 0 <= k < |b.pixels| => InvertPixel(b.pixels[k])))
  }

  /** Inverting twice restores the buffer. */
  lemma {:induction false} InvertInvolution(b: Raster)
    requires b.Valid()
    ensures Invert(Invert(b)) == b
  {
    var twice := Invert(Invert(b));
    forall k | 0 <= k < |b.pixels|
      ensures twice.pixels[k] == b.pixels[k]
    {
      InvertPixelInvolution(b.pixels[k]);
    }
  }

  /** A buffer holding only black and white keeps that property under every
      paint tool used with a black or white colour. */
  lemma ToolsKeepBinary(b: Raster, stamps: seq<Coord>, size: int, color: bv32)
    requires b.Valid() && AllBinary(b.pixels) && IsBinary(color)
    ensures AllBinary(Fill(b, color).pixels)
    ensures AllBinary(Invert(b).pixels)
    ensures AllBinary(ApplyStamps(b, stamps, size, color).pixels)
  {
    var f := Fill(b, color);
    forall k | 0 <= k < |f.pixels| ensures IsBinary(f.pixels[k]) {
      IndexCompose(b.width, b.height, k);
      assert f.pixels[k] == f.At(k % b.width, k / b.width);
    }
    var s := ApplyStamps(b, stamps, size, color);
    forall k | 0 <= k < |s.pixels| ensures IsBinary(s.pixels[k]) {
      IndexCompose(b.width, b.height, k);
      assert s.pixels[k] == s.At(k % b.width, k / b.width);
      assert b.pixels[k] == b.At(k % b.width, k / b.width);
    }
  }
}

=== FILE: scoring.dfy ===
/**
 The per-frame comparison of the thresholded video frame (the staging
 buffer) with the player's paint buffer, and the accumulation of points.
 */
module Scoring {
  import opened Pixels

  /** Points awarded for a frame painted with perfect accuracy. */
  const MAX_POINTS_PER_FRAME: real := 10.0

  /** Whether staging pixel `i` is black. The comparison loop runs over the
      paint buffer's length; a staging index past the end reads as
      `undefined`, which is not black. */
  predicate StagingBlack(staging: seq<bv32>, i: int) {
    0 <= i < |staging| && staging[i] == BLACK
  }

  /** Both buffers agree on whether pixel `i` is black. */
  predicate Agree(staging: seq<bv32>, paint: seq<bv32>, i: int)
    requires 0 <= i < |paint|
  {
    StagingBlack(staging, i) == (paint[i] == BLACK)
  }

  /** The number of agreeing indices among the first `n` of the paint buffer. */
  function CorrectUpTo(staging: seq<bv32>, paint: seq<bv32>, n: nat): (c: nat)
    requires n <= |paint|
    ensures c <= n
  {
    if n == 0 then 0
    else CorrectUpTo(staging, paint, n - 1) + (if Agree(staging, paint, n - 1) then 1 else 0)
  }

  function Correct(staging: seq<bv32>, paint: seq<bv32>): nat {
    CorrectUpTo(staging, paint, |paint|)
  }

  /** `correct / total`, or one for an empty buffer. */
  function Accuracy(correct: nat, total: nat): (a: real)
    requires correct <= total
    ensures 0.0 <= a <= 1.0
    ensures a == 1.0 <==> correct == total
    ensures a == 0.0 <==> correct == 0 && total > 0
  {
    if total == 0 then 1.0 else correct as real / total as real
  }

  /** The scoring callback's loop: the count of agreeing pixels and the
      frame's accuracy. */
  method ScoreFrame(staging: seq<bv32>, paint: seq<bv32>) returns (correct: nat, accuracy: real)
    ensures correct == Correct(staging, paint) && correct <= |paint|
    ensures accuracy == Accuracy(correct, |paint|)
    ensures 0.0 <= accuracy <= 1.0
  {
    correct := 0;
    var i := 0;
    while i < |paint|
      invariant 0 <= i <= |paint|
      invariant correct == CorrectUpTo(staging, paint, i)
    {
      var stagingPixelIsBlack := i < |staging| && staging[i] == BLACK;
      var paintPixelIsBlack := paint[i] == BLACK;
      if stagingPixelIsBlack == paintPixelIsBlack {
        correct := correct + 1;
      }
      i := i + 1;
    }
    var totalPixels := |paint|;
    accuracy := if totalPixels == 0 then 1.0 else correct as real / totalPixels as real;
  }

  /** The running total after one frame: it never decreases and grows by at
      most `MAX_POINTS_PER_FRAME`. */
  function AddFramePoints(points: real, accuracy: real): (p: real)
    requires 0.0 <= accuracy <= 1.0
    ensures points <= p <= points + MAX_POINTS_PER_FRAME
    ensures p == points + MAX_POINTS_PER_FRAME <==> accuracy == 1.0
  {
    points + accuracy * MAX_POINTS_PER_FRAME
  }

  /** The count over a stretch of agreeing indices grows by the stretch's
      length; over a stretch of disagreeing ones it stays put. */
  lemma {:induction false} CorrectOverRange(staging: seq<bv32>, paint: seq<bv32>, m: nat, n: nat)
    requires m <= n <= |paint|
    ensures (forall i :: m <= i < n ==> Agree(staging, paint, i)) ==>
      CorrectUpTo(staging, paint, n) == CorrectUpTo(staging, paint, m) + (n - m)
    ensures (forall i :: m <= i < n ==> !Agree(staging, paint, i)) ==>
      CorrectUpTo(staging, paint, n) == CorrectUpTo(staging, paint, m)
  {
    if n > m {
      CorrectOverRange(staging, paint, m, n - 1);
    }
  }

  /** Every index agrees exactly when the count reaches the total. */
  lemma {:induction false} PerfectIff(staging: seq<bv32>, paint: seq<bv32>, n: nat)
    requires n <= |paint|
    ensures CorrectUpTo(staging, paint, n) == n <==> forall i :: 0 <= i < n ==> Agree(staging, paint, i)
  {
    if n > 0 {
      PerfectIff(staging, paint, n - 1);
    }
  }

  /** No index agrees exactly when the count is zero. */
  lemma {:induction false} NoneIff(staging: seq<bv32>, paint: seq<bv32>, n: nat)
    requires n <= |paint|
    ensures CorrectUpTo(staging, paint, n) == 0 <==> forall i :: 0 <= i < n ==> !Agree(staging, paint, i)
  {
    if n > 0 {
      NoneIff(staging, paint, n - 1);
    }
  }

  /** Accuracy is one exactly when every pixel agrees (trivially so for an
      empty buffer), and zero exactly when a non-empty buffer disagrees
      everywhere. */
  lemma AccuracyExtremes(staging: seq<bv32>, paint: seq<bv32>)
    ensures Accuracy(Correct(staging, paint), |paint|) == 1.0 <==>
      forall i :: 0 <= i < |paint| ==> Agree(staging, paint, i)
    ensures Accuracy(Correct(staging, paint), |paint|) == 0.0 <==>
      |paint| > 0 && forall i :: 0 <= i < |paint| ==> !Agree(staging, paint, i)
  {
    PerfectIff(staging, paint, |paint|);
    NoneIff(staging, paint, |paint|);
  }

  /** For two black-and-white buffers of one size, accuracy one means the
      buffers are identical. */
  lemma PerfectMeansIdentical(staging: seq<bv32>, paint: seq<bv32>)
    requires |staging| == |paint| && AllBinary(staging) && AllBinary(paint)
    ensures Accuracy(Correct(staging, paint), |paint|) == 1.0 <==> staging == paint
  {
    AccuracyExtremes(staging, paint);
    if forall i :: 0 <= i < |paint| ==> Agree(staging, paint, i) {
      forall i | 0 <= i < |paint| ensures staging[i] == paint[i] {
        assert Agree(staging, paint, i);
      }
    }
  }

  /** Swapping the two buffers gives the same count. */
  lemma {:induction false} CorrectSymmetric(a: seq<bv32>, b: seq<bv32>, n: nat)
    requires |a| == |b| && n <= |a|
    ensures CorrectUpTo(a, b, n) == CorrectUpTo(b, a, n)
  {
    if n > 0 {
      CorrectSymmetric(a, b, n - 1);
    }
  }

  /** A 4 x 4 all-white paint buffer against a target whose top row is black:
      twelve of sixteen pixels agree, accuracy 0.75, 7.5 points. */
  lemma FourByFourScenario()
    ensures var target := seq(16, i => if i < 4 then BLACK else WHITE);
            var paint := seq(16, _ => WHITE);
            && Correct(target, paint) == 12
            && Accuracy(Correct(target, paint), 16) == 0.75
            && AddFramePoints(0.0, Accuracy(Correct(target, paint), 16)) == 7.5
  {
    var target := seq(16, i => if i < 4 then BLACK else WHITE);
    var paint := seq(16, _ => WHITE);
    CorrectOverRange(target, paint, 0, 4);
    CorrectOverRange(target, paint, 4, 16);
  }
}

=== FILE: session.dfy ===
/**
 The game session: the paint buffer, the score, the brush and the drag state
 that the page keeps in module-level variables, with one function per event
 the page reacts to. Video playback, the DOM and the start and end screens
 stay outside; their effects arrive as event parameters.
 */
module Session {
  import opened Wrappers
  import opened Geometry
  import opened Arith
  import opened Pixels
  import opened Raster
  import opened Scoring
  import opened Mapping
  import opened Stroke
  import opened BrushSize
  import opened Keys

  /** Start-screen settings read during the game. */
  datatype Config = Config(minSize: int, maxSize: int, fillEnabled: bool, invertEnabled: bool)

  datatype Session = Session(
    buffer: Raster,
    points: real,
    accuracy: real,
    brushSize: int,
    color: PaintColor,
    painting: bool,
    lastPaint: Option<Coord>)

  /** The invariant every event keeps: a well-formed buffer holding only
      black and white, a non-negative score and an accuracy in `[0, 1]`. */
  predicate Valid(s: Session) {
    && s.buffer.Valid()
    && AllBinary(s.buffer.pixels)
    && 0.0 <= s.points
    && 0.0 <= s.accuracy <= 1.0
  }

  /** Starting a game: zero points, the middle brush size, a fresh opaque
      black buffer of the configured size and white paint. The drag state and
      the last shown accuracy are not touched. */
  function StartGame(prev: Session, cfg: Config, width: nat, height: nat): (s: Session)
    requires 0.0 <= prev.accuracy <= 1.0
    ensures Valid(s)
    ensures s.points == 0.0 && s.color == White
    ensures s.buffer.width == width && s.buffer.height == height
    ensures forall x, y :: s.buffer.InBounds(x, y) ==> s.buffer.At(x, y) == BLACK
    ensures s.brushSize == StartSize(cfg.minSize, cfg.maxSize)
    ensures cfg.minSize <= cfg.maxSize ==> cfg.minSize <= s.brushSize <= cfg.maxSize
    ensures s.painting == prev.painting && s.lastPaint == prev.lastPaint
    ensures s.accuracy == prev.accuracy
  {
    var buffer := Blank(width, height, BLACK);
    assert AllBinary(buffer.pixels) by {
      forall k | 0 <= k < |buffer.pixels| ensures IsBinary(buffer.pixels[k]) {
        IndexCompose(width, height, k);
        assert buffer.pixels[k] == buffer.At(k % width, k / width);
      }
    }
    Session(buffer, 0.0, prev.accuracy, StartSize(cfg.minSize, cfg.maxSize), White,
            prev.painting, prev.lastPaint)
  }

  /** A delivered video frame: threshold it, compare it with the buffer and
      add the frame's points. The buffer and the brush are untouched. On a
      canvas of zero area reading the frame back fails before anything is
      scored, so such a frame changes nothing. */
  function OnFrame(s: Session, frame: seq<bv32>): (s': Session)
    ensures Valid(s) ==> Valid(s')
    ensures s'.buffer == s.buffer && s'.brushSize == s.brushSize && s'.color == s.color
    ensures s'.lastPaint == s.lastPaint && s'.painting == s.painting
    ensures |s.buffer.pixels| == 0 ==> s' == s
    ensures |s.buffer.pixels| > 0 ==>
      s'.accuracy == Accuracy(Correct(Threshold(frame), s.buffer.pixels), |s.buffer.pixels|)
    ensures s.points <= s'.points <= s.points + MAX_POINTS_PER_FRAME
    ensures |s.buffer.pixels| > 0 ==> s'.points == s.points + s'.accuracy * MAX_POINTS_PER_FRAME
  {
    if |s.buffer.pixels| == 0 then s else
    var staging := Threshold(frame);
    var accuracy := Accuracy(Correct(staging, s.buffer.pixels), |s.buffer.pixels|);
    s.(accuracy := accuracy, points := AddFramePoints(s.points, accuracy))
  }

  /** Painting at a pointer position: nothing at all happens off the image;
      on it, the brush is stamped along the interpolated stroke from the last
      painted pixel and the new pixel becomes the last painted one. */
  function PaintAtEvent(s: Session, rect: Rect, clientX: real, clientY: real): (s': Session)
    requires s.buffer.Valid() && ValidGeometry(s.buffer.width, s.buffer.height, rect)
    ensures s'.buffer.Valid() && s'.buffer.width == s.buffer.width && s'.buffer.height == s.buffer.height
    ensures s'.points == s.points && s'.accuracy == s.accuracy
    ensures s'.brushSize == s.brushSize && s'.color == s.color && s'.painting == s.painting
    ensures MapToBuffer(s.buffer.width, s.buffer.height, rect, clientX, clientY).None? ==> s' == s
    ensures var p := MapToBuffer(s.buffer.width, s.buffer.height, rect, clientX, clientY);
      p.Some? ==>
        && s'.lastPaint == p
        && s.buffer.InBounds(p.value.x, p.value.y)
        && forall x, y :: s.buffer.InBounds(x, y) ==>
             s'.buffer.At(x, y) ==
               if Covered(Interpolate(s.lastPaint, p.value), s.brushSize, x, y)
               then Word(s.color) else s.buffer.At(x, y)
  {
    match MapToBuffer(s.buffer.width, s.buffer.height, rect, clientX, clientY)
    case None => s
    case Some(p) =>
      var stamps := Interpolate(s.lastPaint, p);
      s.(buffer := ApplyStamps(s.buffer, stamps, s.brushSize, Word(s.color)), lastPaint := Some(p))
  }

  /** Pressing the button on the canvas starts a new drag: the last painted
      pixel is forgotten, then the pointer position is painted. */
  function MouseDown(s: Session, rect: Rect, clientX: real, clientY: real): (s': Session)
    requires s.buffer.Valid() && ValidGeometry(s.buffer.width, s.buffer.height, rect)
    ensures s'.painting
    ensures s'.points == s.points && s'.accuracy == s.accuracy
    ensures s'.brushSize == s.brushSize && s'.color == s.color
    ensures s'.lastPaint == MapToBuffer(s.buffer.width, s.buffer.height, rect, clientX, clientY)
  {
    PaintAtEvent(s.(painting := true, lastPaint := None), rect, clientX, clientY)
  }

  /** Releasing the button anywhere ends the drag. */
  function MouseUp(s: Session): (s': Session)
    ensures !s'.painting && s'.lastPaint.None?
    ensures s' == s.(painting := s'.painting, lastPaint := s'.lastPaint)
  {
    s.(painting := false, lastPaint := None)
  }

  /** Moving over the canvas paints only while the button is held. */
  function MouseMove(s: Session, rect: Rect, clientX: real, clientY: real): (s': Session)
    requires s.buffer.Valid() && ValidGeometry(s.buffer.width, s.buffer.height, rect)
    ensures s.painting ==> s' == PaintAtEvent(s, rect, clientX, clientY)
    ensures !s.painting ==> s' == s
  {
    if s.painting then PaintAtEvent(s, rect, clientX, clientY) else s
  }

  /** Leaving the canvas breaks the stroke but keeps the drag going. */
  function MouseLeave(s: Session): (s': Session)
    ensures s'.lastPaint.None?
    ensures s' == s.(lastPaint := s'.lastPaint)
  {
    s.(lastPaint := None)
  }

  /** A fresh drag stamps one brush square at the pointer and nothing else. */
  lemma MouseDownStampsOnce(s: Session, rect: Rect, clientX: real, clientY: real)
    requires s.buffer.Valid() && ValidGeometry(s.buffer.width, s.buffer.height, rect)
    ensures var p := MapToBuffer(s.buffer.width, s.buffer.height, rect, clientX, clientY);
      var s' := MouseDown(s, rect, clientX, clientY);
      && (p.None? ==> s'.buffer == s.buffer)
      && (p.Some? ==> forall x, y :: s.buffer.InBounds(x, y) ==>
            s'.buffer.At(x, y) ==
              if InSquare(p.value, s.brushSize, x, y) then Word(s.color) else s.buffer.At(x, y))
  {
    var p := MapToBuffer(s.buffer.width, s.buffer.height, rect, clientX, clientY);
    if p.Some? {
      var stamps := Interpolate(None, p.value);
      assert stamps == [p.value];
      forall x, y ensures Covered(stamps, s.brushSize, x, y) <==> InSquare(p.value, s.brushSize, x, y) {
        if InSquare(p.value, s.brushSize, x, y) {
          assert InSquare(stamps[0], s.brushSize, x, y);
        }
      }
    }
  }

  /** While the last painted pixel is inside the buffer, every stamp centre
      of the next stroke is too, and so is the new last painted pixel. */
  lemma StrokeStaysInBuffer(s: Session, rect: Rect, clientX: real, clientY: real)
    requires s.buffer.Valid() && ValidGeometry(s.buffer.width, s.buffer.height, rect)
    requires s.lastPaint.Some? ==> s.buffer.InBounds(s.lastPaint.value.x, s.lastPaint.value.y)
    ensures var s' := PaintAtEvent(s, rect, clientX, clientY);
      s'.lastPaint.Some? ==> s'.buffer.InBounds(s'.lastPaint.value.x, s'.lastPaint.value.y)
    ensures var p := MapToBuffer(s.buffer.width, s.buffer.height, rect, clientX, clientY);
      p.Some? ==> forall i :: 0 <= i < |Interpolate(s.lastPaint, p.value)| ==>
        var c := Interpolate(s.lastPaint, p.value)[i];
        s.buffer.InBounds(c.x, c.y)
  {
    var p := MapToBuffer(s.buffer.width, s.buffer.height, rect, clientX, clientY);
    if p.Some? {
      var stamps := Interpolate(s.lastPaint, p.value);
      forall i | 0 <= i < |stamps| ensures s.buffer.InBounds(stamps[i].x, stamps[i].y) {
        if s.lastPaint.None? {
          assert stamps[i] == p.value;
        }
      }
    }
  }

  /** The swap-colours tool: the other colour is selected. */
  function SwapColors(s: Session): (s': Session)
    ensures s'.color != s.color
    ensures Word(s'.color) == InvertPixel(Word(s.color))
    ensures s' == s.(color := s'.color)
  {
    s.(color := Swap(s.color))
  }

  /** The fill tool: every pixel takes the current colour. */
  function FillTool(s: Session): (s': Session)
    requires s.buffer.Valid()
    ensures s'.buffer.Valid() && s'.buffer.width == s.buffer.width && s'.buffer.height == s.buffer.height
    ensures forall x, y :: s.buffer.InBounds(x, y) ==> s'.buffer.At(x, y) == Word(s.color)
    ensures s' == s.(buffer := s'.buffer)
  {
    s.(buffer := Fill(s.buffer, Word(s.color)))
  }

  /** The invert tool: black and white trade places everywhere. */
  function InvertTool(s: Session): (s': Session)
    requires s.buffer.Valid()
    ensures s'.buffer.Valid() && s'.buffer.width == s.buffer.width && s'.buffer.height == s.buffer.height
    ensures forall k :: 0 <= k < |s.buffer.pixels| ==>
      (s'.buffer.pixels[k] == BLACK <==> s.buffer.pixels[k] == WHITE) &&
      (s'.buffer.pixels[k] == WHITE <==> s.buffer.pixels[k] == BLACK)
    ensures s' == s.(buffer := s'.buffer)
  {
    s.(buffer := Invert(s.buffer))
  }

  /** Using the invert tool twice leaves the session as it was, and so does
      swapping colours twice. */
  lemma ToolsInvolutive(s: Session)
    requires s.buffer.Valid()
    ensures InvertTool(InvertTool(s)) == s
    ensures SwapColors(SwapColors(s)) == s
  {
    InvertInvolution(s.buffer);
  }

  /** A wheel event over the canvas. */
  function WheelEvent(s: Session, cfg: Config, deltaY: real): (s': Session)
    ensures s' == s.(brushSize := s'.brushSize)
    ensures s'.brushSize == s.brushSize + 1 <==> deltaY < 0.0 && s.brushSize < cfg.maxSize
    ensures s'.brushSize == s.brushSize - 1 <==> deltaY > 0.0 && s.brushSize > cfg.minSize
    ensures deltaY == 0.0 ==> s' == s
    ensures Abs(s'.brushSize - s.brushSize) <= 1
    ensures cfg.minSize <= s.brushSize <= cfg.maxSize ==> cfg.minSize <= s'.brushSize <= cfg.maxSize
  {
    s.(brushSize := Wheel(s.brushSize, deltaY, cfg.minSize, cfg.maxSize))
  }

  /** The actions a keybind can trigger. */
  datatype Action = PlayPause | SwapColorsAction | FillToolAction | InvertToolAction
                  | IncreaseBrushSize | DecreaseBrushSize

  datatype Binding = Binding(action: Action, keys: seq<string>)

  /** A brush-size preset: the size it selects and its chord. */
  datatype Preset = Preset(value: int, keys: seq<string>)

  /** One keybind action. Pause and resume act on the video only; the fill
      and invert tools act only when enabled on the start screen. */
  function ApplyAction(s: Session, cfg: Config, a: Action): (s': Session)
    requires s.buffer.Valid()
    ensures s'.buffer.Valid() && s'.points == s.points && s'.lastPaint == s.lastPaint
    ensures s'.painting == s.painting && s'.accuracy == s.accuracy
    ensures a != FillToolAction && a != InvertToolAction ==> s'.buffer == s.buffer
    ensures a == PlayPause ==> s' == s
    ensures a == SwapColorsAction ==> s' == s.(color := Swap(s.color))
    ensures a == FillToolAction ==>
      s' == if cfg.fillEnabled then s.(buffer := Fill(s.buffer, Word(s.color))) else s
    ensures a == InvertToolAction ==>
      s' == if cfg.invertEnabled then s.(buffer := Invert(s.buffer)) else s
    ensures a == IncreaseBrushSize ==> s' == s.(brushSize := Increase(s.brushSize, cfg.maxSize))
    ensures a == DecreaseBrushSize ==> s' == s.(brushSize := Decrease(s.brushSize, cfg.minSize))
    ensures cfg.minSize <= s.brushSize <= cfg.maxSize ==> cfg.minSize <= s'.brushSize <= cfg.maxSize
  {
    match a
    case PlayPause => s
    case SwapColorsAction => SwapColors(s)
    case FillToolAction => if cfg.fillEnabled then FillTool(s) else s
    case InvertToolAction => if cfg.invertEnabled then InvertTool(s) else s
    case IncreaseBrushSize => s.(brushSize := Increase(s.brushSize, cfg.maxSize))
    case DecreaseBrushSize => s.(brushSize := Decrease(s.brushSize, cfg.minSize))
  }

  predicate BindingMatches(bindings: seq<Binding>, chord: seq<string>) {
    exists i :: 0 <= i < |bindings| && SameKeys(bindings[i].keys, chord)
  }

  /** Every keybind whose chord equals the pressed one, in order. */
  function RunBindings(s: Session, cfg: Config, bindings: seq<Binding>, chord: seq<string>): (r: (Session, bool))
    requires s.buffer.Valid()
    ensures r.0.buffer.Valid() && r.0.points == s.points && r.0.lastPaint == s.lastPaint
    ensures r.0.painting == s.painting && r.0.accuracy == s.accuracy
    ensures r.1 <==> BindingMatches(bindings, chord)
    ensures !r.1 ==> r.0 == s
    ensures cfg.minSize <= s.brushSize <= cfg.maxSize ==> cfg.minSize <= r.0.brushSize <= cfg.maxSize
    ensures Valid(s) ==> Valid(r.0)
    decreases |bindings|
  {
    if |bindings| == 0 then (s, false)
    else
      var hit := SameKeys(bindings[0].keys, chord);
      var s1 := if hit then ApplyAction(s, cfg, bindings[0].action) else s;
      assert Valid(s) ==> Valid(s1) by {
        if Valid(s) && hit {
          ToolsKeepBinary(s.buffer, [], 0, Word(s.color));
        }
      }
      var r := RunBindings(s1, cfg, bindings[1..], chord);
      assert BindingMatches(bindings, chord) <==> hit || BindingMatches(bindings[1..], chord) by {
        if BindingMatches(bindings, chord) && !hit {
          var i :| 0 <= i < |bindings| && SameKeys(bindings[i].keys, chord);
          assert bindings[1..][i - 1] == bindings[i];
        }
        if BindingMatches(bindings[1..], chord) {
          var i :| 0 <= i < |bindings[1..]| && SameKeys(bindings[1..][i].keys, chord);
          assert bindings[i + 1] == bindings[1..][i];
        }
      }
      (r.0, hit || r.1)
  }

  /** A single keybind runs its action exactly when its chord has the
      pressed keys. */
  lemma RunOneBinding(s: Session, cfg: Config, b: Binding, chord: seq<string>)
    requires s.buffer.Valid()
    ensures RunBindings(s, cfg, [b], chord) ==
      if SameKeys(b.keys, chord) then (ApplyAction(s, cfg, b.action), true) else (s, false)
  {
    assert [b][1..] == [];
  }

  /** The keybinds run in list order: running a concatenation runs the first
      part, then the second part on its result. */
  lemma {:induction false} RunBindingsInOrder(s: Session, cfg: Config, b1: seq<Binding>, b2: seq<Binding>,
                                              chord: seq<string>)
    requires s.buffer.Valid()
    ensures var r1 := RunBindings(s, cfg, b1, chord);
      var r2 := RunBindings(r1.0, cfg, b2, chord);
      RunBindings(s, cfg, b1 + b2, chord) == (r2.0, r1.1 || r2.1)
    decreases |b1|
  {
    if |b1| > 0 {
      var hit := SameKeys(b1[0].keys, chord);
      var s1 := if hit then ApplyAction(s, cfg, b1[0].action) else s;
      assert (b1 + b2)[0] == b1[0];
      assert (b1 + b2)[1..] == b1[1..] + b2;
      RunBindingsInOrder(s1, cfg, b1[1..], b2, chord);
    } else {
      assert b1 + b2 == b2;
    }
  }

  predicate PresetMatches(presets: seq<Preset>, chord: seq<string>) {
    exists i :: 0 <= i < |presets| && SameKeys(presets[i].keys, chord)
  }

  /** The size the presets select for a chord: each matching preset, in
      order, overwrites the brush size, so the last match wins. `None` when no
      preset matches. */
  function PresetSize(presets: seq<Preset>, chord: seq<string>): (r: Option<int>)
    ensures r.Some? <==> PresetMatches(presets, chord)
    ensures r.Some? ==> exists i :: 0 <= i < |presets| && SameKeys(presets[i].keys, chord)
                                    && presets[i].value == r.value
                                    && forall j :: i < j < |presets| ==> !SameKeys(presets[j].keys, chord)
    decreases |presets|
  {
    if |presets| == 0 then None
    else
      var init := presets[..|presets| - 1];
      var last := presets[|presets| - 1];
      if SameKeys(last.keys, chord) then Some(last.value)
      else
        var r := PresetSize(init, chord);
        assert PresetMatches(presets, chord) ==> PresetMatches(init, chord) by {
          if PresetMatches(presets, chord) {
            var i :| 0 <= i < |presets| && SameKeys(presets[i].keys, chord);
            assert init[i] == presets[i];
          }
        }
        assert r.Some? ==> exists i :: 0 <= i < |presets| && SameKeys(presets[i].keys, chord)
                                       && presets[i].value == r.value
                                       && forall j :: i < j < |presets| ==> !SameKeys(presets[j].keys, chord) by {
          if r.Some? {
            var i :| 0 <= i < |init| && SameKeys(init[i].keys, chord) && init[i].value == r.value
                     && forall j :: i < j < |init| ==> !SameKeys(init[j].keys, chord);
            assert presets[i] == init[i];
            forall j | i < j < |presets| ensures !SameKeys(presets[j].keys, chord) {
              if j < |init| {
                assert presets[j] == init[j];
              }
            }
          }
        }
        r
  }

  /** A keydown anywhere in the window. On the start screen nothing happens;
      during the game, every keybind and then every preset whose chord has
      the same keys as the pressed chord takes effect. The result says
      whether the event was handled. */
  function KeyDown(s: Session, cfg: Config, bindings: seq<Binding>, presets: seq<Preset>,
                   e: KeyEvent, inGame: bool): (r: (Session, bool))
    requires s.buffer.Valid()
    ensures r.1 <==> inGame && (BindingMatches(bindings, PressedKeys(e)) || PresetMatches(presets, PressedKeys(e)))
    ensures !r.1 ==> r.0 == s
    ensures Valid(s) ==> Valid(r.0)
    ensures r.0.points == s.points && r.0.lastPaint == s.lastPaint
    ensures cfg.minSize <= s.brushSize <= cfg.maxSize && !PresetMatches(presets, PressedKeys(e)) ==>
      cfg.minSize <= r.0.brushSize <= cfg.maxSize
    ensures inGame ==>
      var bound := RunBindings(s, cfg, bindings, PressedKeys(e)).0;
      && r.0 == bound.(brushSize := r.0.brushSize)
      && (PresetSize(presets, PressedKeys(e)).None? ==> r.0 == bound)
      && (PresetSize(presets, PressedKeys(e)).Some? ==>
            r.0.brushSize == PresetSize(presets, PressedKeys(e)).value)
  {
    if !inGame then (s, false)
    else
      var chord := PressedKeys(e);
      var (s1, boundHit) := RunBindings(s, cfg, bindings, chord);
      match PresetSize(presets, chord)
      case None => (s1, boundHit)
      case Some(size) => (s1.(brushSize := size), true)
  }

  /** A preset may select a size outside the configured range. */
  lemma PresetBypassesBounds(s: Session)
    requires s.buffer.Valid()
    ensures var cfg := Config(1, 5, false, false);
      var e := KeyEvent("9", false, false, false, false);
      var r := KeyDown(s.(brushSize := 3), cfg, [], [Preset(9, ["9"])], e, true);
      r.1 && r.0.brushSize == 9 && r.0.brushSize > cfg.maxSize
  {
    var e := KeyEvent("9", false, false, false, false);
    assert !IsModifier("9");
    assert PressedKeys(e) == ["9"];
    assert ChordsEqual(["9"], ["9"]);
  }

  /** Two presets on the same chord: the later one decides the size. */
  lemma LastPresetWins(s: Session)
    requires s.buffer.Valid()
    ensures var e := KeyEvent("a", false, false, false, false);
      var r := KeyDown(s, Config(1, 9, false, false), [], [Preset(2, ["a"]), Preset(7, ["a"])], e, true);
      r.1 && r.0.brushSize == 7
  {
    var e := KeyEvent("a", false, false, false, false);
    assert !IsModifier("a");
    assert PressedKeys(e) == ["a"];
  }

  /** Everything the page reacts to during a game. */
  datatype Event =
    | Frame(frame: seq<bv32>)
    | PointerDown(rect: Rect, clientX: real, clientY: real)
    | PointerMove(rect: Rect, clientX: real, clientY: real)
    | PointerUp
    | PointerLeave
    | SwapColorsClick
    | FillClick
    | InvertClick
    | Scroll(deltaY: real)
    | Key(e: KeyEvent)

  /** Pointer events need a non-empty canvas shown at a non-zero size. */
  predicate Admissible(s: Session, ev: Event) {
    (ev.PointerDown? || ev.PointerMove?) ==> ValidGeometry(s.buffer.width, s.buffer.height, ev.rect)
  }

  /** The session after one event of a running game. */
  function Step(s: Session, cfg: Config, bindings: seq<Binding>, presets: seq<Preset>, ev: Event): (s': Session)
    requires s.buffer.Valid() && Admissible(s, ev)
  {
    match ev
    case Frame(frame) => OnFrame(s, frame)
    case PointerDown(rect, x, y) => MouseDown(s, rect, x, y)
    case PointerMove(rect, x, y) => MouseMove(s, rect, x, y)
    case PointerUp => MouseUp(s)
    case PointerLeave => MouseLeave(s)
    case SwapColorsClick => SwapColors(s)
    case FillClick => FillTool(s)
    case InvertClick => InvertTool(s)
    case Scroll(deltaY) => WheelEvent(s, cfg, deltaY)
    case Key(e) => KeyDown(s, cfg, bindings, presets, e, true).0
  }

  /** The session invariant holds after every event: the buffer only ever
      holds black and white, points and accuracy stay in range. */
  lemma StepKeepsValid(s: Session, cfg: Config, bindings: seq<Binding>, presets: seq<Preset>, ev: Event)
    requires Valid(s) && Admissible(s, ev)
    ensures Valid(Step(s, cfg, bindings, presets, ev))
  {
    match ev
    case PointerDown(rect, x, y) =>
      var p := MapToBuffer(s.buffer.width, s.buffer.height, rect, x, y);
      if p.Some? {
        ToolsKeepBinary(s.buffer, Interpolate(None, p.value), s.brushSize, Word(s.color));
      }
    case PointerMove(rect, x, y) =>
      var p := MapToBuffer(s.buffer.width, s.buffer.height, rect, x, y);
      if p.Some? {
        ToolsKeepBinary(s.buffer, Interpolate(s.lastPaint, p.value), s.brushSize, Word(s.color));
      }
    case FillClick =>
      ToolsKeepBinary(s.buffer, [], 0, Word(s.color));
    case InvertClick =>
      ToolsKeepBinary(s.buffer, [], 0, Word(s.color));
    case _ =>
  }

  /** Points never decrease during a game. */
  lemma StepNeverLowersPoints(s: Session, cfg: Config, bindings: seq<Binding>, presets: seq<Preset>, ev: Event)
    requires Valid(s) && Admissible(s, ev)
    ensures s.points <= Step(s, cfg, bindings, presets, ev).points
  {
  }

  /** The last-painted-pixel state machine: releasing the button and leaving
      the canvas clear it, pressing sets it to the pointer's pixel (none when
      off the image), moving while pressed sets it when on the image and
      leaves it otherwise, and every other event leaves it alone. */
  lemma LastPaintTransitions(s: Session, cfg: Config, bindings: seq<Binding>, presets: seq<Preset>, ev: Event)
    requires s.buffer.Valid() && Admissible(s, ev)
    ensures var s' := Step(s, cfg, bindings, presets, ev);
      match ev
      case PointerUp => s'.lastPaint.None?
      case PointerLeave => s'.lastPaint.None?
      case PointerDown(rect, x, y) =>
        s'.lastPaint == MapToBuffer(s.buffer.width, s.buffer.height, rect, x, y)
      case PointerMove(rect, x, y) =>
        var p := MapToBuffer(s.buffer.width, s.buffer.height, rect, x, y);
        s'.lastPaint == if s.painting && p.Some? then p else s.lastPaint
      case _ => s'.lastPaint == s.lastPaint
  {
  }

  /** After a restart the score starts from nothing and the buffer is black
      again: the first frame scores at most one frame's worth of points, and
      an all-white frame scores none. */
  lemma RestartScenario(prev: Session, cfg: Config, width: nat, height: nat, frame: seq<bv32>)
    requires 0.0 <= prev.accuracy <= 1.0
    ensures var s := OnFrame(StartGame(prev, cfg, width, height), frame);
      s.points <= MAX_POINTS_PER_FRAME
    ensures var s := OnFrame(StartGame(prev, cfg, width, height), frame);
      width * height == 0 ==> s.points == 0.0 && s.accuracy == prev.accuracy
    ensures var s := OnFrame(StartGame(prev, cfg, width, height), frame);
      width * height > 0 && |frame| == width * height &&
      (forall i :: 0 <= i < |frame| ==> THRESHOLD <= frame[i]) ==>
        s.points == 0.0 && s.accuracy == 0.0
  {
    var s0 := StartGame(prev, cfg, width, height);
    var staging := Threshold(frame);
    if width * height > 0 && |frame| == width * height &&
       (forall i :: 0 <= i < |frame| ==> THRESHOLD <= frame[i]) {
      forall i | 0 <= i < |s0.buffer.pixels| ensures !Agree(staging, s0.buffer.pixels, i) {
        IndexCompose(width, height, i);
        assert s0.buffer.pixels[i] == s0.buffer.At(i % width, i / width);
      }
      NoneIff(staging, s0.buffer.pixels, |s0.buffer.pixels|);
    }
  }
}

=== FILE: stroke.dfy ===
/**
 Stroke interpolation: between the last painted coordinate and the new one,
 the brush is stamped at `steps + 1` evenly spaced, rounded points so that a
 fast pointer leaves no gaps.
 */
module Stroke {
  import opened Wrappers
  import opened Geometry
  import opened Arith

  /** The least `r >= s` whose square reaches `n`. */
  function CeilSqrtFrom(n: nat, s: nat): (r: nat)
    ensures s <= r && n <= r * r
    ensures r == s || (r - 1) * (r - 1) < n
    decreases n - s * s
  {
    if n <= s * s then s
    else
      assert (s + 1) * (s + 1) == s * s + 2 * s + 1;
      CeilSqrtFrom(n, s + 1)
  }

  /** `max(1, ceil(sqrt(dx * dx + dy * dy)))`, written without a square root:
      the least positive `s` with `s * s >= dx * dx + dy * dy`. */
  function Steps(dx: int, dy: int): (s: nat)
    ensures 1 <= s && dx * dx + dy * dy <= s * s
    ensures s == 1 || (s - 1) * (s - 1) < dx * dx + dy * dy
  {
    CeilSqrtFrom(dx * dx + dy * dy, 1)
  }

  /** A non-negative `s` whose square bounds `a * a + b * b` bounds `|a|`. */
  lemma RootDominates(s: nat, a: int, b: int)
    requires a * a + b * b <= s * s
    ensures Abs(a) <= s
  {
    assert b * b >= 0 by {
      MulLeft(0, Abs(b), Abs(b));
    }
    assert Abs(a) * Abs(a) == a * a;
    if s < Abs(a) {
      SquareMonotone(s, Abs(a));
    }
  }

  /** The step count is at least the distance along each axis. */
  lemma StepsDominate(dx: int, dy: int)
    ensures Abs(dx) <= Steps(dx, dy) && Abs(dy) <= Steps(dx, dy)
  {
    var s := Steps(dx, dy);
    RootDominates(s, dx, dy);
    RootDominates(s, dy, dx);
  }

  /** `Math.round(a + d * i / s)` on exact rationals, `floor(v + 1/2)`,
      computed as one integer division. */
  function Lerp(a: int, d: int, i: int, s: int): (r: int)
    requires s >= 1
    ensures 2 * s * (r - a) <= 2 * d * i + s < 2 * s * (r - a) + 2 * s
  {
    a + (2 * d * i + s) / (2 * s)
  }

  /** The reference rounding: halves round up, as `Math.round` does. */
  function RoundHalfUp(v: real): int {
    (v + 0.5).Floor
  }

  lemma HalfShift(x: int, s: int)
    requires s >= 1
    ensures x as real / s as real + 0.5 == (2 * x + s) as real / (2 * s) as real
  {
    var u := x as real / s as real;
    RealDivTimes(x as real, s as real);
    var y := u + 0.5;
    assert y * (2 * s) as real == 2.0 * (u * s as real) + s as real;
    RealDivChar((2 * x + s) as real, (2 * s) as real, y);
  }

  /** `Lerp` is the rounding of the exact interpolated value. */
  lemma LerpRounds(a: int, d: int, i: int, s: int)
    requires s >= 1
    ensures Lerp(a, d, i, s) == RoundHalfUp(a as real + (d * i) as real / s as real)
  {
    var n, m := 2 * d * i + s, 2 * s;
    HalfShift(d * i, s);
    assert 2 * (d * i) == 2 * d * i;
    FloorOfFraction(n, m);
    var v := a as real + (d * i) as real / s as real + 0.5;
    assert v == a as real + n as real / m as real;
  }

  /** The first and last interpolated values are the endpoints. */
  lemma LerpEnds(a: int, d: int, s: int)
    requires s >= 1
    ensures Lerp(a, d, 0, s) == a
    ensures Lerp(a, d, s, s) == a + d
  {
    DivUnique(s, 2 * s, 0, s);
    DivUnique(2 * d * s + s, 2 * s, d, s);
  }

  /** For a non-negative difference the rounded offset stays in `[0, d]`. */
  lemma OffsetBetween(d: nat, i: int, s: int)
    requires s >= 1 && 0 <= i <= s
    ensures 0 <= (2 * d * i + s) / (2 * s) <= d
  {
    var n, top := 2 * d * i + s, 2 * d * s + s;
    assert 0 <= 2 * d * i by {
      MulLeft(0, i, 2 * d);
    }
    assert n <= top by {
      MulLeft(i, s, 2 * d);
    }
    DivMonotone(n, top, 2 * s);
    DivUnique(top, 2 * s, d, s);
  }

  /** Rounding half up commutes with negation up to the direction of ties:
      the offset for `-d` is minus the offset for `d`, or one more. */
  lemma OffsetNegated(d: int, i: int, s: int)
    requires s >= 1
    ensures var o, o' := (2 * d * i + s) / (2 * s), (2 * (-d) * i + s) / (2 * s);
      -o <= o' <= -o + 1
  {
    var m := 2 * s;
    var n, n' := 2 * d * i + s, 2 * (-d) * i + s;
    assert n + n' == m;
    var o, o' := n / m, n' / m;
    var r, r' := n % m, n' % m;
    assert m * (o + o') + r + r' == m;
    if o + o' < 0 {
      MulLeft(o + o', -1, m);
    }
    if o + o' > 1 {
      MulLeft(2, o + o', m);
    }
  }

  /** Every interpolated value lies between the endpoints. */
  lemma LerpBetween(a: int, d: int, i: int, s: int)
    requires s >= 1 && 0 <= i <= s
    ensures Min(a, a + d) <= Lerp(a, d, i, s) <= Max(a, a + d)
  {
    if d >= 0 {
      OffsetBetween(d, i, s);
    } else {
      OffsetBetween(-d, i, s);
      OffsetNegated(-d, i, s);
      assert 2 * (-(-d)) * i == 2 * d * i;
    }
  }

  /** When the step count dominates the distance, neighbouring values differ
      by at most one. */
  lemma LerpNeighbours(a: int, d: int, i: int, s: int)
    requires s >= 1 && Abs(d) <= s
    ensures Abs(Lerp(a, d, i + 1, s) - Lerp(a, d, i, s)) <= 1
  {
    var lo, hi := 2 * d * i + s, 2 * d * (i + 1) + s;
    assert hi == lo + 2 * d;
    if d >= 0 {
      DivMonotone(lo, hi, 2 * s);
    } else {
      DivMonotone(hi, lo, 2 * s);
    }
  }

  /** The points to stamp for a pointer event at `p`: just `p` at the start
      of a drag, otherwise the rounded interpolation from the previous point
      to `p`, both ends included. */
  function Interpolate(last: Option<Coord>, p: Coord): (r: seq<Coord>)
    ensures last.None? ==> r == [p]
    ensures last.Some? ==>
      var dx, dy := p.x - last.value.x, p.y - last.value.y;
      && |r| == Steps(dx, dy) + 1
      && r[0] == last.value
      && r[|r| - 1] == p
    ensures |r| >= 1 && r[|r| - 1] == p
    ensures forall i :: 0 <= i < |r| - 1 ==>
      Abs(r[i + 1].x - r[i].x) <= 1 && Abs(r[i + 1].y - r[i].y) <= 1
    ensures last.Some? ==> forall i :: 0 <= i < |r| ==>
      && Min(last.value.x, p.x) <= r[i].x <= Max(last.value.x, p.x)
      && Min(last.value.y, p.y) <= r[i].y <= Max(last.value.y, p.y)
  {
    match last
    case None => [p]
    case Some(q) =>
      var dx, dy := p.x - q.x, p.y - q.y;
      var s := Steps(dx, dy);
      var r := seq(s + 1, i requires 0 <= i <= s => Coord(Lerp(q.x, dx, i, s), Lerp(q.y, dy, i, s)));
      LerpEnds(q.x, dx, s);
      LerpEnds(q.y, dy, s);
      StepsDominate(dx, dy);
      assert forall i :: 0 <= i < |r| - 1 ==>
        Abs(r[i + 1].x - r[i].x) <= 1 && Abs(r[i + 1].y - r[i].y) <= 1 by {
        forall i | 0 <= i < |r| - 1
          ensures Abs(r[i + 1].x - r[i].x) <= 1 && Abs(r[i + 1].y - r[i].y) <= 1
        {
          LerpNeighbours(q.x, dx, i, s);
          LerpNeighbours(q.y, dy, i, s);
        }
      }
      assert forall i :: 0 <= i < |r| ==>
        && Min(q.x, p.x) <= r[i].x <= Max(q.x, p.x)
        && Min(q.y, p.y) <= r[i].y <= Max(q.y, p.y) by {
        forall i | 0 <= i < |r|
          ensures Min(q.x, p.x) <= r[i].x <= Max(q.x, p.x)
          ensures Min(q.y, p.y) <= r[i].y <= Max(q.y, p.y)
        {
          LerpBetween(q.x, dx, i, s);
          LerpBetween(q.y, dy, i, s);
        }
      }
      r
  }

  /** Each interpolated point is the rounding of the exact point at
      parameter `i / steps` on the segment. */
  lemma InterpolateRounds(q: Coord, p: Coord, i: nat)
    requires i < |Interpolate(Some(q), p)|
    ensures var s := Steps(p.x - q.x, p.y - q.y);
      var c := Interpolate(Some(q), p)[i];
      && c.x == RoundHalfUp(q.x as real + ((p.x - q.x) * i) as real / s as real)
      && c.y == RoundHalfUp(q.y as real + ((p.y - q.y) * i) as real / s as real)
  {
    var s := Steps(p.x - q.x, p.y - q.y);
    LerpRounds(q.x, p.x - q.x, i, s);
    LerpRounds(q.y, p.y - q.y, i, s);
  }
}
